=== FILE: README.md ===
# Loggr log ingestion, modelled in Dafny

Loggr is a Laravel service that collects application logs into a MongoDB
`logs` collection. It exposes three HTTP actions:

- `POST /logs` validates a submission and acknowledges it with `202` at once. Its
  identifiers are assigned up front: a fresh `_id`, and the given `trace_id`
  or a fresh one. The submission goes onto a queue.
- A queued `ProcessLogEntry` job later fills in any `_id`, `trace_id` or
  `timestamp` that is still missing or empty, and writes the document
  through the `Log` model. That model backfills identifiers again in its
  `creating` hook.
- `GET /logs` searches with optional exact and range filters, newest first,
  one page at a time.
- `GET /logs/{id}` returns one document, or `404`.

The model covers the request rules, the controller, the service, the job and
its queue, the repository, and the `Log` model with its collection:

| file | module | form |
|---|---|---|
| `php_values.dfy` | `PhpValues` | PHP array values, the `isset` / `empty` / `??` tests, and integers written in decimal |
| `dates.dfy` | `Dates` | reading an ISO 8601 date string into an instant |
| `uuid.dfy` | `Uuid` | the UUID shape the `uuid` rule accepts and `Str::uuid()` yields |
| `log_model.dfy` | `LogModel` | the model's settings and hook; `Log` and `LogCollection` are classes updated in place |
| `query.dfy` | `Query` | the meaning of a search: conditions, BSON ordering, sort, pagination |
| `log_repository.dfy` | `Repository` | `LogRepository` as a class over the collection; `search` builds its query step by step |
| `process_log_entry.dfy` | `Jobs` | the queue and the job, as classes |
| `log_service.dfy` | `Services` | `LogService` |
| `requests.dfy` | `Requests` | the two form requests' rules, as predicates |
| `log_controller.dfy` | `Controller` | `LogController` |
| `pipeline.dfy` | `Pipeline` | store → worker → show, end to end |

Some choices are made throughout the model:

- Values are `Null`, `Str`, `Int` or `Time`. `Time` is a date object (a
  Carbon instance, or a BSON date in the store), given by its instant in
  seconds since 1970-01-01 UTC.
- Request input holds strings, integers and null. A query-string number such
  as `per_page=20` is the string `"20"`; the `integer` rule and the `int`
  parameter read it as `FILTER_VALIDATE_INT` does (`PhpValues.ParseInt`).
  A date such as `date_from=2024-02-29` is a string; the `date` rule and the
  `datetime` cast read it with `Dates.ParseDate`; the rule also needs a year
  of at least 1, as `checkdate` does (`Requests.IsDate`).
- `Str::uuid()` and `now()` become parameters.
- The collection is a sequence of documents in insertion order.
- MongoDB's unique index on `_id` makes a second insert with the same key
  fail (`DuplicateKey`).

## Model

| member | source | states |
|---|---|---|
| `PhpValues.Only` | app/Http/Controllers/LogController.php:31-37 | `only`/`validated` keep exactly the listed keys that are present, values unchanged |
| `PhpValues.AbsenceTestsDiffer` | app/Jobs/ProcessLogEntry.php:46-56 | the worker's "not set or empty" test is the negation of the filters' "set and not empty" test; on a set-but-empty value `??` keeps the value while the worker replaces it |
| `PhpValues.Empty` | app/Jobs/ProcessLogEntry.php:46-56 | PHP's `empty()`: null, `""`, `"0"` and `0` are empty, a date object is not |
| `PhpValues.Isset` | app/Services/LogService.php:37 | `isset($a[$k])`: the key is present and not null |
| `PhpValues.Missing` | app/Jobs/ProcessLogEntry.php:46-56 | the worker's test: not set, or set but empty |
| `PhpValues.Filled` | app/Repositories/LogRepository.php:43-61 | the filters' test: set and not empty |
| `PhpValues.Coalesce` | app/Services/LogService.php:31 | `??`: the value when set (even if empty), else the default |
| `PhpValues.ParseInt` | app/Http/Requests/IndexLogRequest.php:44 | `FILTER_VALIDATE_INT` on a string reads at most a 64-bit integer, from a non-empty string that is all digits after an optional first character |
| `PhpValues.IntegerValue` | app/Http/Controllers/LogController.php:39-41 | the integer a value holds: an `int` as it is, a string as `ParseInt` reads it, nothing for null or a date |
| `PhpValues.DecimalString` | app/Http/Requests/IndexLogRequest.php:44 | the decimal spelling of a number is a digit string without a leading zero that spells that number |
| `PhpValues.ParseDecimalString` | app/Http/Requests/IndexLogRequest.php:44 | reading back the decimal spelling of a number in range gives the number |
| `PhpValues.CanonicalIsDecimal` | app/Http/Requests/IndexLogRequest.php:44 | a digit string without a leading zero is the decimal spelling of the number it spells |
| `PhpValues.ParseIntExact` | app/Http/Requests/IndexLogRequest.php:44 | `ParseInt` reads `s` as `n` exactly when `n` is in the 64-bit range and `s` spells it: its digits for `n >= 0`, optionally after `+`, and `-` then the digits of `-n` for `n <= 0`; so never a leading zero, a lone sign or the empty string |
| `PhpValues.ParseIntSamples` | app/Http/Requests/IndexLogRequest.php:44 | `"-5"` is -5, `"+0"` and `"-0"` are 0; `"007"`, `"-"` and `""` are not integers |
| `Dates.ParseDate` | app/Http/Requests/IndexLogRequest.php:42 | a date string names an instant only in an accepted layout: a valid calendar day of 10 characters, or one followed by `T` or a space and a valid clock time, 19 characters, or 20 ending in `Z`; a bare day is its midnight. This is the reading the rule and the cast share; year 0000 is a day here, and only the rule refuses it |
| `Dates.CalendarDay` | app/Http/Requests/IndexLogRequest.php:42 | a calendar day needs the `YYYY-MM-DD` layout (four digits, a dash, two digits, a dash, two digits) with a month from 1 to 12 and a day within that month |
| `Dates.ClockTime` | app/Http/Requests/IndexLogRequest.php:42 | a clock time is a number of seconds within one day |
| `Dates.DateIsNotInteger` | app/Models/Log.php:65 | a date string is never an integer string, nor empty, so the cast's integer reading never takes it |
| `Dates.DateTimeIsDayPlusClock` | app/Http/Requests/IndexLogRequest.php:42 | a date-time's instant is its day's midnight plus its clock time |
| `Dates.DateTimeAt` | app/Http/Requests/IndexLogRequest.php:42 | conversely, a valid day and clock time in a date-time layout give that sum |
| `Dates.CalendarDayAt` | app/Http/Requests/IndexLogRequest.php:42 | a `YYYY-MM-DD` string names the midnight of that day exactly when the day exists (month 1 to 12, day within the month, February 29 only in leap years) |
| `Dates.ClockTimeAt` | app/Http/Requests/IndexLogRequest.php:42 | an `HH:MM:SS` string names its seconds after midnight exactly when the hour is below 24 and the minute and second below 60 |
| `Dates.EpochIsZero` | app/Models/Log.php:65 | `1970-01-01` is instant 0 |
| `Dates.MarchFirst2000` | app/Models/Log.php:65 | `2000-03-01T00:00:00Z` is instant 951868800 |
| `Dates.LeapDayNoon2024` | app/Models/Log.php:65 | `2024-02-29 12:30:05` is instant 1709209805 |
| `Dates.NoLeapDay2023` | app/Http/Requests/IndexLogRequest.php:42 | `2023-02-29` is not a date |
| `Dates.NoThirteenthMonth` | app/Http/Requests/IndexLogRequest.php:42 | `2024-13-01` is not a date |
| `Uuid.UuidIsFilled` | app/Services/LogService.php:31-32 | a generated or validated UUID is neither empty in PHP's sense nor blank |
| `LogModel.CastDate` | app/Models/Log.php:64-68 | the `datetime` cast keeps falsy values and dates, reads an integer as a Unix timestamp, reads a string first as an integer timestamp and otherwise as a date string, and throws exactly on a non-empty string that is neither |
| `LogModel.Fill` | app/Models/Log.php:50-57 | mass assignment keeps exactly the fillable keys; it fails exactly when the timestamp cast fails |
| `LogModel.AfterCreating` | app/Models/Log.php:77-84 | the hook gives an empty `_id`/`trace_id` a fresh UUID, leaves a non-empty one alone, and touches no other key |
| `LogModel.CreatingKeepsIdentified` | app/Models/Log.php:77-84 | on a document that already has a non-empty `_id` and `trace_id`, the hook changes nothing |
| `LogModel.CreatingIsIdempotent` | app/Models/Log.php:77-84 | running the hook a second time, with any UUIDs, changes nothing |
| `LogModel.NewRecord` | app/Models/Log.php:29-43 | the inserted document is identified by its `_id`, holds the fillable keys plus the key and the two timestamps, `created_at = updated_at = now`, and every filled key other than `_id` and `trace_id` keeps its filled value |
| `LogModel.FindIn` | app/Repositories/LogRepository.php:27-30 | `find` returns a stored document with that `_id`, and returns nothing exactly when no document has it |
| `LogModel.FindInUnique` | app/Models/Log.php:29-43 | with unique keys, lookup by a document's `_id` returns that document |
| `LogModel.CreateOutcome` | app/Repositories/LogRepository.php:16-19 | `create` succeeds exactly when the record builds and its `_id` is not yet stored; the success value is that record; a taken key is reported as `DuplicateKey` |
| `LogModel.Log.Creating` | app/Models/Log.php:77-84 | the listener updates the model's attributes in place to `AfterCreating` of the old ones |
| `LogModel.Log.TouchTimestamps` | app/Models/Log.php:64-68 | insertion stamps `created_at` and `updated_at` with the same instant and changes nothing else |
| `LogModel.LogCollection.Find` | app/Repositories/LogRepository.php:29 | `Log::find($id)` looks up the string key `_id` |
| `LogModel.LogCollection.Create` | app/Repositories/LogRepository.php:18 | the collection grows by exactly the created record, or stays unchanged on failure; `_id`s stay unique and every document stays identified |
| `Query.StrLeTotal` | app/Repositories/LogRepository.php:63 | string order is total |
| `Query.StrLeTransitive` | app/Repositories/LogRepository.php:63 | string order is transitive |
| `Query.ValueLeTotal` | app/Repositories/LogRepository.php:63 | the cross-type BSON order is total |
| `Query.ValueLeTransitive` | app/Repositories/LogRepository.php:63 | the cross-type BSON order is transitive |
| `Query.Holds` | app/Repositories/LogRepository.php:43-61 | one `where`: equality, or a range comparison that only holds between values of the same BSON type |
| `Query.MatchesAsWritten` | app/Repositories/LogRepository.php:43-61 | as written, every filled filter constrains the document with its value as received, date bounds included |
| `Query.DateOperand` | app/Repositories/LogRepository.php:55-61 | a date bound that reads as a date becomes that instant as a date object; anything else is kept; emptiness is unchanged |
| `Query.ConvertDates` | app/Repositories/LogRepository.php:55-61 | only `date_from` and `date_to` are converted; every other filter is kept |
| `Query.ConvertDatesWithout` | app/Repositories/LogRepository.php:55-61 | removing a date bound from the filters removes just that converted bound |
| `Query.Matches` | app/Repositories/LogRepository.php:43-61 | the corrected meaning of the filters: the guarded conditions with the date bounds compared as dates |
| `Query.LowerBoundConjunct` | app/Repositories/LogRepository.php:55-57 | as written, a filled `date_from` is one conjunct: the rest of the filters, plus the same-type comparison with the bound |
| `Query.UpperBoundConjunct` | app/Repositories/LogRepository.php:59-61 | as written, a filled `date_to` is one conjunct: the rest of the filters, plus the same-type comparison with the bound |
| `Query.RawDateFilterMissesDates` | app/Repositories/LogRepository.php:55-61 | as written, a filled string date bound excludes every document whose timestamp is a date |
| `Query.LowerDateBound` | app/Repositories/LogRepository.php:55-57 | corrected, a `date_from` that reads as a date keeps exactly the documents that the other filters keep and that are stamped at or after its instant, for every document and every other filter |
| `Query.UpperDateBound` | app/Repositories/LogRepository.php:59-61 | corrected, a `date_to` that reads as a date keeps exactly the documents that the other filters keep and that are stamped at or before its instant, for every document and every other filter |
| `Query.DateFilterMatchesInstant` | app/Repositories/LogRepository.php:55-61 | corrected, with both bounds set, a document matches exactly when the other filters keep it and its timestamp is a date between the two instants |
| `Query.DateFilterExample` | app/Repositories/LogRepository.php:55-57 | a log stamped 2024-02-29 12:30:05 and `date_from=1970-01-01`: missed as written, found when corrected |
| `Query.EmptyFiltersMatchAll` | app/Repositories/LogRepository.php:43-61 | filters that are all unset, null or empty constrain nothing |
| `Query.Execute` | app/Repositories/LogRepository.php:41-61 | a document is in the result exactly when it is stored and satisfies every condition, and the result is no longer than the collection |
| `Query.SelectExact` | app/Repositories/LogRepository.php:43-61 | the filtered results are exactly the matching documents, each with its multiplicity in the collection |
| `Query.ExecuteAgrees` | app/Repositories/LogRepository.php:41-63 | a query whose conditions mean the filters returns exactly the filtered documents, in collection order |
| `Query.Insert` | app/Repositories/LogRepository.php:63 | insertion into the ordered results adds exactly one document |
| `Query.InsertSorted` | app/Repositories/LogRepository.php:63 | insertion keeps the results ordered by `timestamp` descending |
| `Query.SortDesc` | app/Repositories/LogRepository.php:63 | `orderBy('timestamp', 'desc')` yields a permutation of its input that is ordered by timestamp, newest first |
| `Query.ResolvePage` | app/Repositories/LogRepository.php:63 | the page number is the requested integer (an `int` or a digit string) if it is at least 1, otherwise 1 |
| `Query.PageFromQueryString` | app/Repositories/LogRepository.php:63 | a page number sent as its decimal digits selects that page |
| `Query.LastPage` | app/Repositories/LogRepository.php:63 | the last page is at least 1, and is the least page count that covers all results |
| `Query.Paginate` | app/Repositories/LogRepository.php:63 | a page holds at most `perPage` consecutive results starting at `(page-1)*perPage`; it reports the total, the size (0 means the model's 15), the current page and the last page |
| `Query.PageNonEmptyIff` | app/Repositories/LogRepository.php:63 | a page has items exactly when there are results and the page is not past the last page |
| `Query.PagesCoverResults` | app/Repositories/LogRepository.php:63 | every result appears on page `k / perPage + 1` at position `k % perPage` |
| `Query.PageItem` | app/Repositories/LogRepository.php:63 | a result `k` with `q * perPage <= k < (q + 1) * perPage` is item `k - q * perPage` of page `q + 1` |
| `Repository.PageOfSorted` | app/Repositories/LogRepository.php:63 | a page of ordered results is ordered, and each of its items is a result |
| `Repository.WhereIfFilled` | app/Repositories/LogRepository.php:43-45 | each guarded `where` adds its condition exactly when the filter is set and not empty |
| `Repository.SearchPage` | app/Repositories/LogRepository.php:39-64 | the page of the built query equals the page of the filtered, sorted documents |
| `Repository.LogRepository.Create` | app/Repositories/LogRepository.php:16-19 | `create` delegates to `Log::create`: same outcome, same collection update |
| `Repository.LogRepository.FindById` | app/Repositories/LogRepository.php:27-30 | `findById` returns a stored document with that `_id`, or null exactly when none has it |
| `Repository.LogRepository.Search` | app/Repositories/LogRepository.php:39-64 | `search` returns the page of matching documents, newest first: only stored documents that match every filled filter, with the date bounds compared as dates, at most `perPage` of them, with the total number of matches |
| `Services.AsyncPayload` | app/Services/LogService.php:31-39 | the dispatched payload has a fresh `_id`; it keeps a set `trace_id` and otherwise gets a fresh one; it keeps a set `timestamp` and otherwise gets now; other keys are unchanged |
| `Services.LogService.CreateAsync` | app/Services/LogService.php:28-48 | exactly one job is queued, carrying the payload; the returned `id` and `trace_id` are the payload's |
| `Services.LogService.FindById` | app/Services/LogService.php:56-59 | `findById` is the repository's lookup |
| `Services.LogService.Search` | app/Services/LogService.php:68-71 | `search` is the repository's page, ordered newest first, with only matching stored documents |
| `Services.SearchWithDefault` | app/Services/LogService.php:68 | `search` without a page size gives pages of 15 |
| `Jobs.JobQueue.Dispatch` | app/Services/LogService.php:42 | `dispatch` appends exactly one job payload to the queue |
| `Jobs.JobQueue.Pop` | app/Jobs/ProcessLogEntry.php:34-36 | the worker takes the oldest job, or nothing from an empty queue |
| `Jobs.Refilled` | app/Jobs/ProcessLogEntry.php:44-56 | each of `_id`, `trace_id` and `timestamp` that is missing or empty gets a UUID or now; other keys are untouched; afterwards none of the three is missing |
| `Jobs.RefillChangesOnlyIncomplete` | app/Jobs/ProcessLogEntry.php:46-56 | the re-fill leaves the payload unchanged exactly when all three keys are set and non-empty |
| `Jobs.ProcessLogEntry.Handle` | app/Jobs/ProcessLogEntry.php:41-59 | `handle` writes `Log::create` of the re-filled payload; the collection grows by that record or stays unchanged |
| `Jobs.ProcessLogEntry.Failed` | app/Jobs/ProcessLogEntry.php:64-70 | the failure report carries the untouched payload and the exception message |
| `Jobs.ProcessLogEntry.tries` | app/Jobs/ProcessLogEntry.php:22 | the job may be attempted 3 times |
| `Jobs.ProcessLogEntry.timeout` | app/Jobs/ProcessLogEntry.php:29 | the job may run for 60 seconds |
| `Jobs.HandleWritesPayload` | app/Jobs/ProcessLogEntry.php:41-59 | the written document carries the re-filled `_id` and `trace_id` (the hook does not change them) and a date `timestamp`: a date object as given, a date string as the instant it names; every other fillable key is as submitted |
| `Jobs.HandleFailsOnlyOn` | app/Jobs/ProcessLogEntry.php:54-58 | `handle` fails exactly when the timestamp is a non-empty string that is neither an integer nor a date, or when the `_id` is already stored |
| `Requests.Validated` | app/Http/Requests/StoreLogRequest.php:25-44 | a valid submission keeps only the ruled keys; `message`, `level` and `service_name` are present, non-blank strings, the level is one of the eight, and the service name is at most 255 characters |
| `Requests.StoreRequestValid` | app/Http/Requests/StoreLogRequest.php:25-44 | the submission rules: `message`, `level` and `service_name` required strings, `level` one of the eight, `service_name` at most 255 characters, `trace_id` a UUID and `timestamp` a date with a year of at least 1 unless blank |
| `Requests.IndexRequestValid` | app/Http/Requests/IndexLogRequest.php:25-45 | the search rules: each filter optional; `trace_id` a UUID, `level` one of the eight, `service_name` at most 255 characters, the dates readable with a year of at least 1 and `date_to` not before `date_from`, `per_page` an integer from 1 to 100 |
| `Requests.ValidTraceIdIsFilled` | app/Http/Requests/StoreLogRequest.php:26 | a validated, non-blank `trace_id` is a UUID, and so it is not empty |
| `Requests.PerPageRange` | app/Http/Requests/IndexLogRequest.php:44 | an integer `per_page` is rejected exactly when it is below 1 or above 100 |
| `Requests.DateRangeOrder` | app/Http/Requests/IndexLogRequest.php:42-43 | a valid search stays valid with new readable date bounds exactly when both years are at least 1 and `date_from` names an instant no later than `date_to` |
| `Requests.YearZeroIsNotDate` | app/Http/Requests/IndexLogRequest.php:42 | `0000-06-15` is a day the shared reading accepts, yet the `date` rule rejects it because its year is 0 |
| `Controller.Filters` | app/Http/Controllers/LogController.php:31-37 | `index` forwards exactly the five filter keys present in the query, and never `per_page` or `page` |
| `Controller.PerPageAsWritten` | app/Http/Controllers/LogController.php:39-41 | as written, the page size argument is 15 when `per_page` is absent and its integer when it holds one (as an `int` or a digit string); it fails exactly when `per_page` is present and holds no integer |
| `Controller.NullPerPageFails` | app/Http/Controllers/LogController.php:39-41 | a query with `per_page` null passes validation and then fails in `index` |
| `Controller.PerPage` | app/Http/Controllers/LogController.php:39 | the corrected page size is 15 when `per_page` is absent, null or blank, else the integer it holds; it lies in [1, 100]; it agrees with the code as written whenever that succeeds |
| `Controller.DigitStringPerPage` | app/Http/Controllers/LogController.php:39-41 | `?per_page=20`, sent as the digits `"20"`, passes validation, and both the code as written and the corrected page size read it as 20 |
| `Controller.Index` | app/Http/Controllers/LogController.php:29-44 | `200` with the page of matching stored documents, at most `PerPage` of them (the corrected action: see "Left out") |
| `Controller.Store` | app/Http/Controllers/LogController.php:52-61 | `202` with the very `id` and `trace_id` of the one payload queued from the validated input |
| `Controller.Show` | app/Http/Controllers/LogController.php:69-80 | `404` exactly when no document has the id; otherwise `200` with a stored document whose `_id` is the id |
| `Pipeline.WorkNext` | app/Jobs/ProcessLogEntry.php:41-59 | a worker step takes the oldest job and applies `handle`; the queue shrinks by that job, and an empty queue changes nothing |
| `Pipeline.WorkerKeepsAsyncPayload` | app/Services/LogService.php:31-39 | the worker rewrites a dispatched payload exactly when the submitted `trace_id` or `timestamp` was set but empty |
| `Pipeline.AcknowledgedIdsAreStored` | app/Services/LogService.php:44-47 | when the submitted `trace_id` is unset or non-empty, the stored document has the acknowledged `id` and `trace_id`, and `find` by that id returns it; the write fails exactly on a taken id or an unreadable timestamp string |
| `Pipeline.EmptyTraceIdDiverges` | app/Services/LogService.php:31 | an empty submitted `trace_id` is acknowledged as `""`, but stored with a fresh UUID (reachable without the `ConvertEmptyStringsToNull` middleware, or through a direct `createAsync` call) |
| `Pipeline.EmptyTraceIdPassesValidation` | app/Http/Requests/StoreLogRequest.php:26 | such a submission passes validation |
| `Pipeline.RedeliveryAddsNoDuplicate` | app/Jobs/ProcessLogEntry.php:22 | a retried job with a complete payload fails on the taken `_id`, so the collection keeps one document for it |
| `Pipeline.SubmittedTraceIdNotEmpty` | app/Http/Requests/StoreLogRequest.php:26 | a validated `trace_id` other than `""` is not empty in PHP's sense |
| `Pipeline.ServiceLevelMatches` | app/Repositories/LogRepository.php:47-53 | filtering on a document's own service and level finds it |
| `Pipeline.StoredSubmission` | app/Http/Controllers/LogController.php:52-61 | the stored document carries the acknowledged ids and the submitted message, level and service, has a date timestamp, and is found by its id and by a search on its service and level |
| `Pipeline.SubmitProcessShow` | app/Http/Controllers/LogController.php:69-80 | store, one worker step, then show: `202`, then `200` with the written document, carrying the acknowledged `id` and `trace_id` |

## Left out

- Retries, back-off and the 60-second timeout are not executed. `tries` and
  `timeout` are constants of the job class, and `Pipeline.RedeliveryAddsNoDuplicate`
  covers what a redelivery does to the collection.
- `failed` logs through the `Log` facade. The model returns the report it would log.
- `LogResource` serialisation and the texts of the response messages are
  not modelled. A response carries the status and the record or page.
- The routes, the migration's secondary indexes and the connection settings
  are not modelled.
- Middleware (`TrimStrings`, `ConvertEmptyStringsToNull`) is not modelled.
  Request values reach the rules as given. With the default middleware a
  submitted `""` arrives as null, so `Pipeline.EmptyTraceIdDiverges` and
  `Pipeline.EmptyTraceIdPassesValidation` describe a request that reaches the
  rules without it, or a direct `createAsync` call.
- The page number is read from the request by the paginator
  (`Paginator::resolveCurrentPage`). The model passes it to
  `Repository.LogRepository.Search` and `Services.LogService.Search` as a parameter.
- `Str::uuid()` and `now()` are parameters. They are assumed to be well-formed UUIDs.
- Dates.ParseDate: reads only the ISO 8601 layouts listed under `Dates`, in UTC.
  `strtotime` and `Carbon::parse` also accept relative and textual forms
  (`now`, `tomorrow`, `29 Feb 2024`), fractions of seconds and UTC offsets.
  They also accept hour 24 and second 60, rolling over into the next day or
  minute (`2024-01-01 24:00:00`); the model reads only hours 0-23 and
  seconds 0-59, so the `date` rule and the cast reject these in the model.
- LogModel.CastDate: a numeric string is read as a timestamp only when
  `ParseInt` reads it. The cast's `is_numeric` also takes leading zeros
  (`"007"` is timestamp 7), decimals, exponents and surrounding whitespace;
  these fail in the model. A blank string (`"  "`), which Carbon reads as
  now, fails in the model too. A bare day that does not exist in its month,
  such as `"2024-02-30"`, is read by `Carbon::createFromFormat('Y-m-d')`,
  which rolls it over (to 2024-03-01); in the model the cast fails on it.
  The `date` rule rejects such a day, so it reaches the cast only through a
  direct `createAsync` call or a hand-made job payload.
- Jobs.HandleFailsOnlyOn, Pipeline.AcknowledgedIdsAreStored: "fails exactly
  on an unreadable timestamp" is with respect to `LogModel.CastDate`, so the
  forms listed under it (a rolled-over day, hour 24, `"007"`) count as
  failures here although the source stores them.
- PhpValues.ParseInt: `FILTER_VALIDATE_INT` also trims surrounding
  whitespace, and PHP's `int` coercion also takes leading and trailing
  whitespace and leading zeros. The model reads none of these, in the rule
  and in the argument alike.
- Services.AsyncPayload: `createAsync` stores the string
  `now()->toIso8601String()`. The model keeps the date object for that
  instant; the cast turns either into the same stored date.
- Repository.LogRepository.Search: models the corrected search, which hands
  the date bounds to the store as dates (`Query.ConvertDates`). As written,
  `search` passes the strings it received (see "Findings"); the model
  assumes no layer in between converts them. A range filter compares only
  values of the same BSON type.
- Controller.Index: models the corrected action. It uses `Controller.PerPage`,
  which reads an absent, null or blank `per_page` as 15, where the code as
  written fails (`Controller.PerPageAsWritten`), and it searches with the
  corrected date bounds.
- Equal timestamps can come back from MongoDB in any order. The model fixes one order.
- `ObjectId` conversion of `_id` by the driver is not modelled. Keys are plain values.
- Concurrency between several workers and the web process is not modelled.
  The queue has one sequential consumer.
- `Repository.LogRepository.Search`, `Services.LogService.Search`: a negative `perPage` is not modelled (the parameter is a `nat`).
  The index request never passes one.
- `Jobs.ProcessLogEntry.Handle`: the UUIDs offered to the `creating` hook are the
  ones the job used. The hook never needs them there, because the re-filled
  `_id` and `trace_id` are never empty.
- `Pipeline.SubmitProcessShow`: requires the queue to be empty beforehand. This makes
  the worker step process this submission, instead of modelling every interleaving.

## Findings

| source | as written | input that shows it | evidently intended | confidence | as-written member | corrected member |
|---|---|---|---|---|---|---|
| app/Http/Controllers/LogController.php:39 | `$request->input('per_page', 15)` returns null for a present but null `per_page`. Null passes `nullable` in IndexLogRequest.php:44, and it is then handed to `int $perPage`, which raises a type error (HTTP 500) | `GET /logs?per_page=`, whose empty string the default middleware turns into null, or a JSON body with `"per_page": null` | an absent, null or blank `per_page` means 15 | medium, not executed | `Controller.PerPageAsWritten` (`Controller.NullPerPageFails`) | `Controller.PerPage` |
| app/Repositories/LogRepository.php:55-61 | the date bounds are passed to `where` as the strings the query sent, while `timestamp` is stored as a date (the `datetime` cast, Log.php:65); MongoDB compares a string only with strings | `GET /logs?date_from=1970-01-01` with a document stamped 2024-02-29 12:30:05: the filter excludes it, as it excludes every document whose timestamp is a date | a date bound keeps the documents stamped at or after (`date_from`) or at or before (`date_to`) the instant it names | medium, not executed | `Query.MatchesAsWritten` (`Query.RawDateFilterMissesDates`, `Query.DateFilterExample`) | `Query.Matches` (`Query.LowerDateBound`, `Query.UpperDateBound`, `Query.DateFilterMatchesInstant`) |

=== FILE: dates.dfy ===
/**
  Reading a date string into an instant, as `strtotime` and `Carbon::parse`
  do for the ISO 8601 layouts a log client sends: `YYYY-MM-DD`,
  `YYYY-MM-DDTHH:MM:SS` (or with a space for `T`), and the latter followed by
  `Z`. Times are in UTC, the application's time zone.
 */
module Dates {
  import opened PhpValues

  const SecondsPerDay := 86400

  predicate LeapYear(y: int) {
    (y % 4 == 0 && y % 100 != 0) || y % 400 == 0
  }

  function DaysInMonth(y: int, m: int): int
    requires 1 <= m <= 12
  {
    if m == 2 then (if LeapYear(y) then 29 else 28)
    else if m == 4 || m == 6 || m == 9 || m == 11 then 30
    else 31
  }

  /** Days from 1970-01-01 to day `d` of month `m` of year `y` in the
      proleptic Gregorian calendar, counting years from March. */
  function DaysFromCivil(y: int, m: int, d: int): int
    requires 1 <= m <= 12
  {
    var y0 := if m <= 2 then y - 1 else y;
    var era := y0 / 400;
    var yearOfEra := y0 - era * 400;
    var dayOfYear := (153 * ((m + 9) % 12) + 2) / 5 + d - 1;
    var dayOfEra := yearOfEra * 365 + yearOfEra / 4 - yearOfEra / 100 + dayOfYear;
    era * 146097 + dayOfEra - 719468
  }

  /** `s[from..from + 2]` holds two digits; their value. */
  function TwoDigits(s: string, from: nat): Option<nat>
  {
    if from + 2 <= |s| && AllDigits(s[from..from + 2]) then Some(DigitsValue(s[from..from + 2])) else None
  }

  /** The first ten characters as a calendar day `YYYY-MM-DD`: the instant
      of its midnight. */
  function CalendarDay(s: string): (r: Option<int>)
    ensures r.Some? ==> |s| >= 10 && s[4] == '-' && s[7] == '-'
    ensures r.Some? ==> AllDigits(s[..4]) && TwoDigits(s, 5).Some? && TwoDigits(s, 8).Some?
    ensures r.Some? ==> 1 <= TwoDigits(s, 5).value <= 12 &&
                        1 <= TwoDigits(s, 8).value <= DaysInMonth(DigitsValue(s[..4]), TwoDigits(s, 5).value)
  {
    if |s| < 10 || !AllDigits(s[..4]) || s[4] != '-' || s[7] != '-' then None
    else match (TwoDigits(s, 5), TwoDigits(s, 8))
      case (Some(m), Some(d)) =>
        var y := DigitsValue(s[..4]);
        if 1 <= m <= 12 && 1 <= d <= DaysInMonth(y, m) then Some(DaysFromCivil(y, m, d) * SecondsPerDay) else None
      case _ => None
  }

  /** Characters `from .. from + 8` as a clock time `HH:MM:SS`: its seconds after midnight. */
  function ClockTime(s: string, from: nat): (r: Option<int>)
    ensures r.Some? ==> 0 <= r.value < SecondsPerDay
  {
    if |s| < from + 8 || s[from + 2] != ':' || s[from + 5] != ':' then None
    else match (TwoDigits(s, from), TwoDigits(s, from + 3), TwoDigits(s, from + 6))
      case (Some(h), Some(m), Some(sec)) =>
        if h < 24 && m < 60 && sec < 60 then Some(h * 3600 + m * 60 + sec) else None
      case _ => None
  }

  /** The instant a date string denotes, or nothing when it is not one of
      the accepted layouts or names no real day or time. */
  function ParseDate(s: string): (r: Option<int>)
    ensures r.Some? ==> |s| >= 10 && s[4] == '-'
    ensures r.Some? ==> CalendarDay(s).Some?
    ensures r.Some? ==> |s| == 10 || ((|s| == 19 || (|s| == 20 && s[19] == 'Z')) && (s[10] == 'T' || s[10] == ' '))
    ensures r.Some? && |s| > 10 ==> ClockTime(s, 11).Some?
    ensures r.Some? && |s| == 10 ==> r == CalendarDay(s)
  {
    match CalendarDay(s)
    case None => None
    case Some(day) =>
      if |s| == 10 then Some(day)
      else if (|s| == 19 || (|s| == 20 && s[19] == 'Z')) && (s[10] == 'T' || s[10] == ' ') then
        match ClockTime(s, 11)
        case Some(t) => Some(day + t)
        case None => None
      else None
  }

  /** A date string is never an integer string, so a cast that tries integers
      first still reads it as a date. */
  lemma DateIsNotInteger(s: string)
    ensures ParseDate(s).Some? ==> ParseInt(s).None? && s != "" && s != "0"
  {
    if ParseDate(s).Some? {
      assert !IsDigit(s[4]);
    }
  }

  /** A date-time is its day's midnight plus its clock time. */
  lemma DateTimeIsDayPlusClock(s: string)
    requires ParseDate(s).Some? && |s| > 10
    ensures CalendarDay(s).Some? && ClockTime(s, 11).Some?
    ensures ParseDate(s).value == CalendarDay(s).value + ClockTime(s, 11).value
  {
  }

  function Digit(c: char): int { c as int - '0' as int }

  lemma TwoDigitsValue(s: string)
    requires |s| == 2 && AllDigits(s)
    ensures DigitsValue(s) == 10 * Digit(s[0]) + Digit(s[1])
  {
    assert DigitsValue(s[..1]) == Digit(s[0]) by {
      assert s[..1][..0] == [];
    }
  }

  lemma FourDigitsValue(s: string)
    requires |s| == 4 && AllDigits(s)
    ensures DigitsValue(s) == 1000 * Digit(s[0]) + 100 * Digit(s[1]) + 10 * Digit(s[2]) + Digit(s[3])
  {
    assert s[..3][..2] == s[..2] && s[..2][..1] == s[..1];
    TwoDigitsValue(s[..2]);
    assert DigitsValue(s[..3]) == DigitsValue(s[..2]) * 10 + Digit(s[2]);
  }

  /** Two digit characters at `from` read as their two-digit number. */
  lemma TwoDigitsAt(s: string, from: nat)
    requires from + 2 <= |s| && IsDigit(s[from]) && IsDigit(s[from + 1])
    ensures TwoDigits(s, from).Some?
    ensures TwoDigits(s, from).value == 10 * Digit(s[from]) + Digit(s[from + 1])
  {
    var t := s[from..from + 2];
    assert t[0] == s[from] && t[1] == s[from + 1];
    TwoDigitsValue(t);
  }

  /** A string laid out as `YYYY-MM-DD` names day `d` of month `m` of year `y`
      exactly when that day exists. */
  lemma CalendarDayAt(s: string, y: int, m: int, d: int)
    requires |s| >= 10 && s[4] == '-' && s[7] == '-'
    requires IsDigit(s[0]) && IsDigit(s[1]) && IsDigit(s[2]) && IsDigit(s[3])
    requires IsDigit(s[5]) && IsDigit(s[6]) && IsDigit(s[8]) && IsDigit(s[9])
    requires y == 1000 * Digit(s[0]) + 100 * Digit(s[1]) + 10 * Digit(s[2]) + Digit(s[3])
    requires m == 10 * Digit(s[5]) + Digit(s[6]) && d == 10 * Digit(s[8]) + Digit(s[9])
    ensures CalendarDay(s) ==
              if 1 <= m <= 12 && 1 <= d <= DaysInMonth(y, m) then Some(DaysFromCivil(y, m, d) * SecondsPerDay) else None
  {
    var year := s[..4];
    assert forall i :: 0 <= i < 4 ==> year[i] == s[i];
    FourDigitsValue(year);
    TwoDigitsAt(s, 5);
    TwoDigitsAt(s, 8);
  }

  /** Characters `HH:MM:SS` at `from` name `h * 3600 + m * 60 + sec` seconds
      after midnight exactly when it is a real clock time. */
  lemma ClockTimeAt(s: string, from: nat, h: int, m: int, sec: int)
    requires from + 8 <= |s| && s[from + 2] == ':' && s[from + 5] == ':'
    requires IsDigit(s[from]) && IsDigit(s[from + 1]) && IsDigit(s[from + 3])
    requires IsDigit(s[from + 4]) && IsDigit(s[from + 6]) && IsDigit(s[from + 7])
    requires h == 10 * Digit(s[from]) + Digit(s[from + 1])
    requires m == 10 * Digit(s[from + 3]) + Digit(s[from + 4])
    requires sec == 10 * Digit(s[from + 6]) + Digit(s[from + 7])
    ensures ClockTime(s, from) == if h < 24 && m < 60 && sec < 60 then Some(h * 3600 + m * 60 + sec) else None
  {
    TwoDigitsAt(s, from);
    TwoDigitsAt(s, from + 3);
    TwoDigitsAt(s, from + 6);
  }

  /** Day counts of the sample dates below, from 1970-01-01. */
  lemma SampleDayCounts()
    ensures DaysFromCivil(1970, 1, 1) == 0
    ensures DaysFromCivil(2000, 3, 1) == 11017
    ensures DaysFromCivil(2024, 2, 29) == 19782
  {
  }

  lemma EpochDay()
    ensures CalendarDay("1970-01-01") == Some(0)
  {
    CalendarDayAt("1970-01-01", 1970, 1, 1);
    SampleDayCounts();
  }

  /** A date-time in an accepted layout is its day's midnight plus its clock time. */
  lemma DateTimeAt(s: string, day: int, clock: int)
    requires |s| == 19 || (|s| == 20 && s[19] == 'Z')
    requires s[10] == 'T' || s[10] == ' '
    requires CalendarDay(s) == Some(day) && ClockTime(s, 11) == Some(clock)
    ensures ParseDate(s) == Some(day + clock)
  {
  }

  /** The epoch is instant 0. */
  lemma EpochIsZero()
    ensures ParseDate("1970-01-01") == Some(0)
  {
    EpochDay();
  }

  const MarchFirst := "2000-03-01T00:00:00Z"

  lemma MarchFirstDay()
    ensures CalendarDay(MarchFirst) == Some(951868800)
  {
    CalendarDayAt(MarchFirst, 2000, 3, 1);
    SampleDayCounts();
  }

  lemma MarchFirstClock()
    ensures ClockTime(MarchFirst, 11) == Some(0)
  {
    ClockTimeAt(MarchFirst, 11, 0, 0, 0);
  }

  /** The day after a leap February, at midnight UTC. */
  lemma MarchFirst2000()
    ensures ParseDate(MarchFirst) == Some(951868800)
  {
    MarchFirstDay();
    MarchFirstClock();
    DateTimeAt(MarchFirst, 951868800, 0);
  }

  const LeapNoon := "2024-02-29 12:30:05"

  lemma LeapNoonDay()
    ensures CalendarDay(LeapNoon) == Some(1709164800)
  {
    CalendarDayAt(LeapNoon, 2024, 2, 29);
    assert LeapYear(2024);
    SampleDayCounts();
  }

  lemma LeapNoonClock()
    ensures ClockTime(LeapNoon, 11) == Some(45005)
  {
    ClockTimeAt(LeapNoon, 11, 12, 30, 5);
  }

  /** A leap day exists in 2024, and the clock time adds its seconds. */
  lemma LeapDayNoon2024()
    ensures ParseDate(LeapNoon) == Some(1709209805)
  {
    LeapNoonDay();
    LeapNoonClock();
    DateTimeAt(LeapNoon, 1709164800, 45005);
  }

  /** 2023 is not a leap year, so it has no February 29. */
  lemma NoLeapDay2023()
    ensures ParseDate("2023-02-29") == None
  {
    CalendarDayAt("2023-02-29", 2023, 2, 29);
    assert !LeapYear(2023);
  }

  /** There is no thirteenth month. */
  lemma NoThirteenthMonth()
    ensures ParseDate("2024-13-01") == None
  {
    CalendarDayAt("2024-13-01", 2024, 13, 1);
  }
}

=== FILE: log_controller.dfy ===
/**
  `LogController`: the three HTTP actions. `index` projects the filter keys
  and the page size out of a valid query, `store` hands the validated
  submission to `createAsync` and answers 202, `show` answers 404 when the
  lookup finds nothing.
 */
module Controller {
  import opened PhpValues
  import opened Uuid
  import opened Query
  import opened Requests
  import opened Services

  /** The query keys `index` forwards as search filters. */
  const FilterKeys: set<string> := {"trace_id", "level", "service_name", "date_from", "date_to"}

  /** `$request->input('per_page', 15)`'s default. */
  const DefaultPageSize := 15

  datatype ControllerError = TypeError

  datatype Body =
    | Acknowledged(id: string, traceId: Value)   // `{message, id, trace_id}`
    | Entry(record: Attrs)                       // one log resource
    | Entries(page: Page)                        // a paginated log collection
    | NotFoundMessage                            // `{message}` of a 404

  datatype Response = Response(status: int, body: Body)

  /** `$request->only([...])`: the five filter keys present in the query, nothing else. */
  function Filters(input: Attrs): (r: Attrs)
    ensures r.Keys == input.Keys * FilterKeys
    ensures "per_page" !in r && "page" !in r
    ensures forall k :: k in r ==> r[k] == input[k]
  {
    Only(input, FilterKeys)
  }

  /** The page size argument as written: `$request->input('per_page', 15)` is
      handed to an `int` parameter. An integer, or a string spelling one, is
      coerced to it; a present `per_page` that is null or a blank string is a
      type error. */
  function PerPageAsWritten(input: Attrs): (r: Result<int, ControllerError>)
    ensures "per_page" !in input ==> r == Success(DefaultPageSize)
    ensures "per_page" in input && IntegerValue(input["per_page"]).Some? ==>
              r == Success(IntegerValue(input["per_page"]).value)
    ensures r.Failure? <==> "per_page" in input && IntegerValue(input["per_page"]).None?
  {
    if "per_page" !in input then Success(DefaultPageSize)
    else match IntegerValue(input["per_page"])
      case Some(i) => Success(i)
      case None => Failure(TypeError)
  }

  /** A query the validator accepts makes the page-size argument fail. */
  lemma NullPerPageFails()
    ensures var input: Attrs := map["per_page" := Null];
            IndexRequestValid(input) && PerPageAsWritten(input) == Failure(TypeError)
  {
  }

  /** The page size `index` passes: the given integer, or 15 when `per_page`
      is absent, null or blank. On a valid query it lies in [1, 100]. */
  function PerPage(input: Attrs): (n: nat)
    requires IndexRequestValid(input)
    ensures MinPerPage <= n <= MaxPerPage
    ensures Skipped(input, "per_page") ==> n == DefaultPageSize
    ensures !Skipped(input, "per_page") ==> IntegerValue(input["per_page"]) == Some(n)
    ensures PerPageAsWritten(input).Success? ==> n == PerPageAsWritten(input).value
  {
    if Skipped(input, "per_page") then DefaultPageSize else IntegerValue(input["per_page"]).value
  }

  /** A page size sent in the query string, such as `?per_page=20`, arrives
      as the digits `"20"`: it passes validation and both readings of it give
      that size. */
  lemma DigitStringPerPage(input: Attrs, n: nat)
    requires IndexRequestValid(input) && MinPerPage <= n <= MaxPerPage
    ensures var q := input["per_page" := Str(DecimalString(n))];
            IndexRequestValid(q) && PerPage(q) == n && PerPageAsWritten(q) == Success(n)
  {
    ParseDecimalString(n);
    var q := input["per_page" := Str(DecimalString(n))];
    assert !BlankValue(q["per_page"]);
  }

  /** `index`: search with the projected filters and page size; 200 with the page. */
  method Index(service: LogService, input: Attrs) returns (response: Response)
    requires IndexRequestValid(input)
    ensures response.status == 200 && response.body.Entries?
    ensures response.body.page ==
              Paginate(SortDesc(Select(service.repository.logs.documents, Filters(input))), PerPage(input), Get(input, "page"))
    ensures forall d :: d in response.body.page.items ==>
              d in service.repository.logs.documents && Matches(Filters(input), d)
    ensures |response.body.page.items| <= PerPage(input)
  {
    var filters := Filters(input);
    var perPage := PerPage(input);
    var logs := service.Search(filters, perPage, Get(input, "page"));
    response := Response(200, Entries(logs));
  }

  /** `store`: hand only the validated input to `createAsync`; 202 with exactly
      the identifiers it returned. */
  method Store(service: LogService, input: Attrs, newTrace: string, newId: string, now: int) returns (response: Response)
    requires StoreRequestValid(input)
    requires IsUuid(newTrace) && IsUuid(newId)
    modifies service.queue
    ensures service.queue.pending == old(service.queue.pending) + [AsyncPayload(Validated(input), newTrace, newId, now)]
    ensures response.status == 202
    ensures response.body == Acknowledged(newId, AsyncPayload(Validated(input), newTrace, newId, now)["trace_id"])
  {
    var ids := service.CreateAsync(Validated(input), newTrace, newId, now);
    response := Response(202, Acknowledged(ids.id, ids.traceId));
  }

  /** `show`: 404 exactly when the lookup finds nothing, otherwise 200 with the record. */
  function Show(service: LogService, id: string): (response: Response)
    reads service, service.repository, service.repository.logs
    ensures response.status == 404 <==> service.FindById(id).None?
    ensures response.status == 404 ==> response.body == NotFoundMessage
    ensures response.status != 404 ==>
              response.status == 200 && response.body.Entry? &&
              response.body.record in service.repository.logs.documents &&
              Get(response.body.record, "_id") == Str(id)
  {
    match service.FindById(id)
    case None => Response(404, NotFoundMessage)
    case Some(log) => Response(200, Entry(log))
  }
}

=== FILE: log_model.dfy ===
/**
  The `Log` document model over the `logs` collection: its key settings, the
  mass-assignment whitelist, the datetime cast on `timestamp`, the `creating`
  hook that backfills `_id` and `trace_id`, and `Log::create` / `Log::find` on
  the collection.
 */
module LogModel {
  import opened PhpValues
  import opened Dates

  /** The primary key attribute. It holds a string (`Find` takes one), and it
      is not auto-incremented: the `creating` hook or the caller assigns it. */
  const PrimaryKey := "_id"

  /** The mass-assignable attributes. */
  const Fillable: set<string> := {"_id", "trace_id", "message", "level", "service_name", "timestamp"}

  datatype CreateError =
    | InvalidDate(attribute: string)   // a date cast threw
    | DuplicateKey(key: Value)         // the collection already holds this `_id`

  /** A non-empty string the `datetime` cast cannot read: neither an integer
      nor a date. */
  predicate UnreadableDate(v: Value) {
    v.Str? && !Empty(v) && ParseInt(v.s).None? && ParseDate(v.s).None?
  }

  /** Setting a `datetime`-cast attribute: a falsy value is stored as it is, a
      date stays a date, an integer (or an integer string) is read as a Unix
      timestamp, a date string as the instant it denotes, and any other string
      makes the cast throw. */
  function CastDate(attribute: string, v: Value): (r: Result<Value, CreateError>)
    ensures Empty(v) ==> r == Success(v)
    ensures v.Time? ==> r == Success(v)
    ensures v.Int? && v.i != 0 ==> r == Success(Time(v.i))
    ensures v.Str? && !Empty(v) && ParseInt(v.s).Some? ==> r == Success(Time(ParseInt(v.s).value))
    ensures v.Str? && ParseDate(v.s).Some? ==> r == Success(Time(ParseDate(v.s).value))
    ensures r.Failure? <==> UnreadableDate(v)
    ensures r.Success? && !Empty(v) ==> r.value.Time?
  {
    if Empty(v) then Success(v)
    else match v
      case Str(s) =>
        DateIsNotInteger(s);
        if ParseInt(s).Some? then Success(Time(ParseInt(s).value))
        else if ParseDate(s).Some? then Success(Time(ParseDate(s).value))
        else Failure(InvalidDate(attribute))
      case Int(i) => Success(Time(i))
      case _ => Success(v)
  }

  /** `new Log($data)`: only fillable keys are taken, and `timestamp` is cast. */
  function Fill(data: Attrs): (r: Result<Attrs, CreateError>)
    ensures r.Failure? <==> "timestamp" in data && CastDate("timestamp", data["timestamp"]).Failure?
    ensures r.Success? ==> r.value.Keys == data.Keys * Fillable
    ensures r.Success? ==> forall k :: k in r.value && k != "timestamp" ==> r.value[k] == data[k]
    ensures r.Success? && "timestamp" in data ==>
              r.value["timestamp"] == CastDate("timestamp", data["timestamp"]).value
  {
    var attrs := Only(data, Fillable);
    if "timestamp" in attrs then
      match CastDate("timestamp", attrs["timestamp"])
      case Failure(e) => Failure(e)
      case Success(v) => Success(attrs["timestamp" := v])
    else
      Success(attrs)
  }

  /** A document that has a non-empty `_id` and `trace_id`. */
  predicate Identified(d: Attrs) {
    PrimaryKey in d && !Empty(d[PrimaryKey]) && "trace_id" in d && !Empty(d["trace_id"])
  }

  /** The attributes after the `creating` listener has run: an empty `_id` or
      `trace_id` gets a fresh UUID; nothing else is touched. */
  function AfterCreating(attrs: Attrs, newId: string, newTrace: string): (r: Attrs)
    requires newId != "" && newId != "0" && newTrace != "" && newTrace != "0"
    ensures Identified(r)
    ensures r.Keys == attrs.Keys + {"_id", "trace_id"}
    ensures r["_id"] == (if Missing(attrs, "_id") then Str(newId) else attrs["_id"])
    ensures r["trace_id"] == (if Missing(attrs, "trace_id") then Str(newTrace) else attrs["trace_id"])
    ensures forall k :: k in attrs && k != "_id" && k != "trace_id" ==> r[k] == attrs[k]
  {
    var a := if Missing(attrs, "_id") then attrs["_id" := Str(newId)] else attrs;
    if Missing(a, "trace_id") then a["trace_id" := Str(newTrace)] else a
  }

  /** The hook leaves an already identified model exactly as it is. */
  lemma CreatingKeepsIdentified(attrs: Attrs, newId: string, newTrace: string)
    requires newId != "" && newId != "0" && newTrace != "" && newTrace != "0"
    requires Identified(attrs)
    ensures AfterCreating(attrs, newId, newTrace) == attrs
  {
  }

  /** Running the hook twice is the same as running it once. */
  lemma CreatingIsIdempotent(attrs: Attrs, newId: string, newTrace: string, id2: string, trace2: string)
    requires newId != "" && newId != "0" && newTrace != "" && newTrace != "0"
    requires id2 != "" && id2 != "0" && trace2 != "" && trace2 != "0"
    ensures AfterCreating(AfterCreating(attrs, newId, newTrace), id2, trace2) == AfterCreating(attrs, newId, newTrace)
  {
    CreatingKeepsIdentified(AfterCreating(attrs, newId, newTrace), id2, trace2);
  }

  /** The attributes Eloquent inserts for `Log::create($data)`: filled, passed
      through the `creating` hook, then stamped with `created_at`/`updated_at`. */
  function NewRecord(data: Attrs, newId: string, newTrace: string, now: int): (r: Result<Attrs, CreateError>)
    requires newId != "" && newId != "0" && newTrace != "" && newTrace != "0"
    ensures r.Failure? <==> Fill(data).Failure?
    ensures r.Success? ==> Identified(r.value)
    ensures r.Success? ==> r.value.Keys == (data.Keys * Fillable) + {"_id", "trace_id", "created_at", "updated_at"}
    ensures r.Success? ==> r.value["created_at"] == Time(now) && r.value["updated_at"] == Time(now)
    ensures r.Success? ==> forall k :: k in Fill(data).value && k != PrimaryKey && k != "trace_id" ==>
                                      r.value[k] == Fill(data).value[k]
  {
    match Fill(data)
    case Failure(e) => Failure(e)
    case Success(attrs) =>
      Success(AfterCreating(attrs, newId, newTrace)["created_at" := Time(now)]["updated_at" := Time(now)])
  }

  /** `Log::find($key)` over documents in collection order: the first document whose `_id` is `key`. */
  function FindIn(docs: seq<Attrs>, key: Value): (r: Option<Attrs>)
    ensures r.Some? ==> r.value in docs && Get(r.value, PrimaryKey) == key
    ensures r.None? <==> forall i :: 0 <= i < |docs| ==> Get(docs[i], PrimaryKey) != key
  {
    if docs == [] then None
    else if Get(docs[0], PrimaryKey) == key then Some(docs[0])
    else FindIn(docs[1..], key)
  }

  /** No two documents share an `_id`. */
  predicate UniqueKeys(docs: seq<Attrs>) {
    forall i, j :: 0 <= i < j < |docs| ==> Get(docs[i], PrimaryKey) != Get(docs[j], PrimaryKey)
  }

  /** With unique keys, lookup by key finds exactly the document that has it. */
  lemma {:induction false} FindInUnique(docs: seq<Attrs>, i: nat)
    requires UniqueKeys(docs) && i < |docs|
    ensures FindIn(docs, Get(docs[i], PrimaryKey)) == Some(docs[i])
  {
    if i > 0 {
      assert Get(docs[0], PrimaryKey) != Get(docs[i], PrimaryKey);
      assert UniqueKeys(docs[1..]) by {
        forall a, b | 0 <= a < b < |docs| - 1 ensures Get(docs[1..][a], PrimaryKey) != Get(docs[1..][b], PrimaryKey) {
          assert docs[1..][a] == docs[a + 1] && docs[1..][b] == docs[b + 1];
        }
      }
      FindInUnique(docs[1..], i - 1);
    }
  }

  /** Appending a document whose key was not yet present makes lookup by that key find it. */
  lemma {:induction false} FindInAppend(docs: seq<Attrs>, d: Attrs, key: Value)
    ensures FindIn(docs + [d], key) ==
              if FindIn(docs, key).Some? then FindIn(docs, key)
              else if Get(d, PrimaryKey) == key then Some(d) else None
  {
    if docs != [] {
      assert (docs + [d])[1..] == docs[1..] + [d];
      FindInAppend(docs[1..], d, key);
    }
  }

  /** What `Log::create($data)` yields on a collection holding `docs`. */
  function CreateOutcome(docs: seq<Attrs>, data: Attrs, newId: string, newTrace: string, now: int): (r: Result<Attrs, CreateError>)
    requires newId != "" && newId != "0" && newTrace != "" && newTrace != "0"
    ensures r.Success? ==> Identified(r.value) && FindIn(docs, r.value[PrimaryKey]).None?
    ensures r.Success? <==> NewRecord(data, newId, newTrace, now).Success? &&
                            FindIn(docs, NewRecord(data, newId, newTrace, now).value[PrimaryKey]).None?
    ensures r.Success? ==> r == NewRecord(data, newId, newTrace, now)
    ensures r.Failure? && NewRecord(data, newId, newTrace, now).Success? ==>
              r.error == DuplicateKey(NewRecord(data, newId, newTrace, now).value[PrimaryKey])
  {
    match NewRecord(data, newId, newTrace, now)
    case Failure(e) => Failure(e)
    case Success(record) =>
      if FindIn(docs, record[PrimaryKey]).Some? then Failure(DuplicateKey(record[PrimaryKey])) else Success(record)
  }

  /** A model instance whose attributes the `creating` listener updates in place. */
  class Log {
    var attributes: Attrs

    constructor (attributes: Attrs)
      ensures this.attributes == attributes
    {
      this.attributes := attributes;
    }

    /** The `creating` listener registered in `boot()`. */
    method Creating(newId: string, newTrace: string)
      requires newId != "" && newId != "0" && newTrace != "" && newTrace != "0"
      modifies this
      ensures attributes == AfterCreating(old(attributes), newId, newTrace)
    {
      if Missing(attributes, "_id") {
        attributes := attributes["_id" := Str(newId)];
      }
      if Missing(attributes, "trace_id") {
        attributes := attributes["trace_id" := Str(newTrace)];
      }
    }

    /** Eloquent's `updateTimestamps()` on insert. */
    method TouchTimestamps(now: int)
      modifies this
      ensures attributes == old(attributes)["created_at" := Time(now)]["updated_at" := Time(now)]
    {
      attributes := attributes["created_at" := Time(now)];
      attributes := attributes["updated_at" := Time(now)];
    }
  }

  /** The `logs` collection, documents in insertion order. */
  class LogCollection {
    var documents: seq<Attrs>

    ghost predicate Valid()
      reads this
    {
      UniqueKeys(documents) && forall i :: 0 <= i < |documents| ==> Identified(documents[i])
    }

    constructor ()
      ensures Valid() && documents == []
    {
      documents := [];
    }

    /** `Log::find($id)`: the document whose `_id` is the string `id`, or null. */
    function Find(id: string): (r: Option<Attrs>)
      reads this
      ensures r.Some? ==> r.value in documents && Get(r.value, PrimaryKey) == Str(id)
      ensures r.None? <==> forall i :: 0 <= i < |documents| ==> Get(documents[i], PrimaryKey) != Str(id)
    {
      FindIn(documents, Str(id))
    }

    /** `Log::create($data)`: build the record and insert it, unless the cast
        throws or the collection already holds its `_id`. */
    method Create(data: Attrs, newId: string, newTrace: string, now: int) returns (r: Result<Attrs, CreateError>)
      requires Valid()
      requires newId != "" && newId != "0" && newTrace != "" && newTrace != "0"
      modifies this
      ensures Valid()
      ensures r == CreateOutcome(old(documents), data, newId, newTrace, now)
      ensures documents == if r.Success? then old(documents) + [r.value] else old(documents)
    {
      var filled := Fill(data);
      if filled.Failure? {
        return Failure(filled.error);
      }
      var model := new Log(filled.value);
      model.Creating(newId, newTrace);
      model.TouchTimestamps(now);
      var key := model.attributes[PrimaryKey];
      if FindIn(documents, key).Some? {
        return Failure(DuplicateKey(key));
      }
      documents := documents + [model.attributes];
      r := Success(model.attributes);
    }
  }
}

=== FILE: log_repository.dfy ===
/**
  `LogRepository`: create, find by id and filtered search over the `logs`
  collection.
 */
module Repository {
  import opened PhpValues
  import opened LogModel
  import opened Query

  /** Every item of a page is one of the ordered results, and a page of
      descending results is itself descending. */
  lemma PageOfSorted(ordered: seq<Attrs>, perPage: nat, page: Value)
    requires SortedDesc(ordered)
    ensures var p := Paginate(ordered, perPage, page);
            SortedDesc(p.items) && forall d :: d in p.items ==> d in ordered
  {
    var p := Paginate(ordered, perPage, page);
    var from := Min((p.currentPage - 1) * p.perPage, |ordered|);
    assert p.items <= ordered[from..];
    forall i, j | 0 <= i < j < |p.items| ensures ValueLe(SortKey(p.items[j]), SortKey(p.items[i])) {
      assert p.items[i] == ordered[from + i] && p.items[j] == ordered[from + j];
    }
    forall d | d in p.items ensures d in ordered {
      var i :| 0 <= i < |p.items| && p.items[i] == d;
      assert ordered[from + i] == d;
    }
  }

  lemma HoldsAllAppend(query: seq<Condition>, c: Condition, doc: Attrs)
    ensures HoldsAll(query + [c], doc) <==> HoldsAll(query, doc) && Holds(c, doc)
  {
    if HoldsAll(query, doc) && Holds(c, doc) {
      forall i | 0 <= i < |query + [c]| ensures Holds((query + [c])[i], doc) {
        if i < |query| {
          assert (query + [c])[i] == query[i];
        }
      }
    }
    if HoldsAll(query + [c], doc) {
      assert (query + [c])[|query|] == c;
      forall i | 0 <= i < |query| ensures Holds(query[i], doc) {
        assert (query + [c])[i] == query[i];
      }
    }
  }

  /** `if (isset($filters[$key]) && !empty($filters[$key])) $query->where($field, $op, $filters[$key]);` */
  method WhereIfFilled(query: seq<Condition>, filters: Attrs, key: string, field: string, op: Op)
    returns (result: seq<Condition>)
    ensures forall d :: HoldsAll(result, d) <==>
              HoldsAll(query, d) && (Filled(filters, key) ==> Holds(Where(field, op, filters[key]), d))
  {
    result := query;
    if Filled(filters, key) {
      var c := Where(field, op, filters[key]);
      result := query + [c];
      forall d ensures HoldsAll(result, d) <==> HoldsAll(query, d) && Holds(c, d) {
        HoldsAllAppend(query, c, d);
      }
    }
  }

  /** Running a query that means the filters yields a page of the matching
      records, newest first. */
  lemma SearchPage(docs: seq<Attrs>, query: seq<Condition>, filters: Attrs, perPage: nat, page: Value)
    requires forall d :: HoldsAll(query, d) <==> Matches(filters, d)
    ensures var result := Paginate(SortDesc(Execute(docs, query)), perPage, page);
            && result == Paginate(SortDesc(Select(docs, filters)), perPage, page)
            && (forall d :: d in result.items ==> d in docs && Matches(filters, d))
            && SortedDesc(result.items)
            && result.total == |Select(docs, filters)|
  {
    ExecuteAgrees(docs, query, filters);
    var ordered := SortDesc(Select(docs, filters));
    PageOfSorted(ordered, perPage, page);
    SelectExact(docs, filters);
    forall d | d in ordered ensures d in docs && Matches(filters, d) {
      assert d in multiset(ordered);
    }
  }

  class LogRepository {
    const logs: LogCollection

    constructor (logs: LogCollection)
      ensures this.logs == logs
    {
      this.logs := logs;
    }

    /** `create($data)`: one record built from `data` is added, or nothing changes. */
    method Create(data: Attrs, newId: string, newTrace: string, now: int) returns (r: Result<Attrs, CreateError>)
      requires logs.Valid()
      requires newId != "" && newId != "0" && newTrace != "" && newTrace != "0"
      modifies logs
      ensures logs.Valid()
      ensures r == CreateOutcome(old(logs.documents), data, newId, newTrace, now)
      ensures logs.documents == if r.Success? then old(logs.documents) + [r.value] else old(logs.documents)
    {
      r := logs.Create(data, newId, newTrace, now);
    }

    /** `findById($id)`: the record whose primary key is `id`, or null. */
    function FindById(id: string): (r: Option<Attrs>)
      reads this, logs
      ensures r.Some? ==> r.value in logs.documents && Get(r.value, PrimaryKey) == Str(id)
      ensures r.None? <==> forall i :: 0 <= i < |logs.documents| ==> Get(logs.documents[i], PrimaryKey) != Str(id)
    {
      logs.Find(id)
    }

    /** `search($filters, $perPage)`: the records matching every filter that is
        set and not empty, newest first, one page of them. The date bounds are
        handed to the store as dates (see `Query.Matches`). */
    method Search(filters: Attrs, perPage: nat, page: Value) returns (result: Page)
      ensures result == Paginate(SortDesc(Select(logs.documents, filters)), perPage, page)
      ensures forall d :: d in result.items ==> d in logs.documents && Matches(filters, d)
      ensures SortedDesc(result.items)
      ensures result.total == |Select(logs.documents, filters)|
      ensures |result.items| <= result.perPage
    {
      var dated := ConvertDates(filters);
      var query: seq<Condition> := [];
      query := WhereIfFilled(query, dated, "trace_id", "trace_id", Eq);
      query := WhereIfFilled(query, dated, "level", "level", Eq);
      query := WhereIfFilled(query, dated, "service_name", "service_name", Eq);
      query := WhereIfFilled(query, dated, "date_from", "timestamp", Gte);
      query := WhereIfFilled(query, dated, "date_to", "timestamp", Lte);
      assert forall d :: HoldsAll(query, d) <==> Matches(filters, d);
      result := Paginate(SortDesc(Execute(logs.documents, query)), perPage, page);
      SearchPage(logs.documents, query, filters, perPage, page);
    }
  }
}

=== FILE: log_service.dfy ===
/**
  `LogService`: accepts a submission, assigns its identifiers, dispatches one
  job and answers at once; lookups and searches go to the repository.
 */
module Services {
  import opened PhpValues
  import opened Uuid
  import opened LogModel
  import opened Query
  import opened Repository
  import opened Jobs

  /** The identifiers `createAsync` returns: `['id' => ..., 'trace_id' => ...]`. */
  datatype CreatedIds = CreatedIds(id: string, traceId: Value)

  /** The page size `search` uses when its caller gives none. */
  const DefaultPerPage: nat := 15

  /** The payload `createAsync` dispatches: `_id` is always the fresh UUID,
      `trace_id` is kept when set and otherwise the fresh trace UUID,
      `timestamp` is the current time only when it is not set, and every
      other key passes through unchanged. */
  function AsyncPayload(data: Attrs, newTrace: string, newId: string, now: int): (r: Attrs)
    ensures r.Keys == data.Keys + {"_id", "trace_id", "timestamp"}
    ensures r["_id"] == Str(newId)
    ensures r["trace_id"] == (if Isset(data, "trace_id") then data["trace_id"] else Str(newTrace))
    ensures r["timestamp"] == (if Isset(data, "timestamp") then data["timestamp"] else Time(now))
    ensures forall k :: k in data && k != "_id" && k != "trace_id" && k != "timestamp" ==> r[k] == data[k]
  {
    var traceId := Coalesce(data, "trace_id", Str(newTrace));
    var p := data["_id" := Str(newId)]["trace_id" := traceId];
    if Isset(p, "timestamp") then p else p["timestamp" := Time(now)]
  }

  class LogService {
    const repository: LogRepository
    const queue: JobQueue

    constructor (repository: LogRepository, queue: JobQueue)
      ensures this.repository == repository && this.queue == queue
    {
      this.repository := repository;
      this.queue := queue;
    }

    /** `createAsync($data)`: fill the identifiers and the timestamp, dispatch
        exactly one job carrying the payload, and return the identifiers that
        payload carries. `newTrace` and `newId` are the UUIDs `Str::uuid()`
        yields, `now` the clock. */
    method CreateAsync(data: Attrs, newTrace: string, newId: string, now: int) returns (ids: CreatedIds)
      requires IsUuid(newTrace) && IsUuid(newId)
      modifies queue
      ensures queue.pending == old(queue.pending) + [AsyncPayload(data, newTrace, newId, now)]
      ensures Str(ids.id) == AsyncPayload(data, newTrace, newId, now)["_id"]
      ensures ids.traceId == AsyncPayload(data, newTrace, newId, now)["trace_id"]
    {
      var traceId := if Isset(data, "trace_id") then data["trace_id"] else Str(newTrace);
      var id := newId;
      var payload := data;
      payload := payload["_id" := Str(id)];
      payload := payload["trace_id" := traceId];
      if !Isset(payload, "timestamp") {
        payload := payload["timestamp" := Time(now)];
      }
      queue.Dispatch(payload);
      ids := CreatedIds(id, traceId);
    }

    /** `findById($id)`: exactly what the repository finds. */
    function FindById(id: string): (r: Option<Attrs>)
      reads this, repository, repository.logs
      ensures r == repository.FindById(id)
      ensures r.Some? ==> r.value in repository.logs.documents && Get(r.value, PrimaryKey) == Str(id)
      ensures r.None? <==> forall i :: 0 <= i < |repository.logs.documents| ==>
                             Get(repository.logs.documents[i], PrimaryKey) != Str(id)
    {
      repository.FindById(id)
    }

    /** `search($filters, $perPage = 15)`: exactly the repository's page. */
    method Search(filters: Attrs, perPage: nat := DefaultPerPage, page: Value := Null) returns (result: Page)
      ensures result == Paginate(SortDesc(Select(repository.logs.documents, filters)), perPage, page)
      ensures forall d :: d in result.items ==> d in repository.logs.documents && Matches(filters, d)
      ensures SortedDesc(result.items)
    {
      result := repository.Search(filters, perPage, page);
    }
  }

  /** Calling `search` without a page size asks for pages of 15. */
  method SearchWithDefault(service: LogService, filters: Attrs) returns (result: Page)
    ensures result.perPage == 15
    ensures result == Paginate(SortDesc(Select(service.repository.logs.documents, filters)), 15, Null)
  {
    result := service.Search(filters);
  }
}

=== FILE: php_values.dfy ===
/**
  Values of the PHP associative arrays the log service passes around (request
  input, job payloads, document attributes), and the three different tests the
  code uses for "this key is absent": `isset`, `empty` and the `??` operator.
 */
module PhpValues {

  datatype Option<T> = None | Some(value: T)

  datatype Result<T, E> = Success(value: T) | Failure(error: E)

  /** A value held under a key. Request input arrives as strings, integers or
      null; `Time` is a date object (a Carbon instance, or a BSON date in the
      store), given by its instant in seconds since 1970-01-01 UTC. */
  datatype Value = Null | Str(s: string) | Int(i: int) | Time(t: int)

  /** An associative array with string keys, or a document's attributes. */
  type Attrs = map<string, Value>

  /** PHP's `empty()`: null, "", "0" and 0 are empty; a date object never is. */
  predicate Empty(v: Value) {
    match v
    case Null => true
    case Str(s) => s == "" || s == "0"
    case Int(i) => i == 0
    case Time(_) => false
  }

  /** `isset($a[$k])`: the key is present and its value is not null. */
  predicate Isset(a: Attrs, k: string) {
    k in a && a[k] != Null
  }

  /** `!isset($a[$k]) || empty($a[$k])`, the test the queue worker uses. */
  predicate Missing(a: Attrs, k: string) {
    !Isset(a, k) || Empty(a[k])
  }

  /** `isset($a[$k]) && !empty($a[$k])`, the test the search filters use. */
  predicate Filled(a: Attrs, k: string) {
    Isset(a, k) && !Empty(a[k])
  }

  /** `$a[$k]` on a possibly missing key: a missing key reads as null. */
  function Get(a: Attrs, k: string): Value {
    if k in a then a[k] else Null
  }

  /** `$a[$k] ?? $default`. */
  function Coalesce(a: Attrs, k: string, default: Value): Value {
    if Isset(a, k) then a[k] else default
  }

  /** `$request->only($keys)` and `validated()`: the entries whose key is listed. */
  function Only(a: Attrs, keys: set<string>): (r: Attrs)
    ensures r.Keys == a.Keys * keys
    ensures forall k :: k in r ==> r[k] == a[k]
  {
    map k | k in a && k in keys :: a[k]
  }

  /** The characters PHP's `trim()` removes. */
  predicate TrimmedChar(c: char) {
    c == ' ' || c == '\t' || c == '\n' || c == '\r' || c == '\0' || c == '\U{000B}'
  }

  /** `trim($s) === ''`. */
  predicate Blank(s: string) {
    forall i :: 0 <= i < |s| ==> TrimmedChar(s[i])
  }

  /** The three absent-tests disagree exactly on set-but-empty values:
      `??` keeps them, the worker's test replaces them, the filters ignore them. */
  lemma AbsenceTestsDiffer(a: Attrs, k: string, default: Value)
    ensures Missing(a, k) <==> !Filled(a, k)
    ensures Isset(a, k) && Empty(a[k]) ==> Missing(a, k) && Coalesce(a, k, default) == a[k]
    ensures !Isset(a, k) ==> Missing(a, k) && Coalesce(a, k, default) == default
    ensures Isset(a, k) && !Empty(a[k]) ==> Filled(a, k) && Coalesce(a, k, default) == a[k]
  {
  }

  // ---------------------------------------------------------------------------
  // Integers written in decimal

  predicate IsDigit(c: char) {
    '0' <= c <= '9'
  }

  predicate AllDigits(s: string) {
    forall i :: 0 <= i < |s| ==> IsDigit(s[i])
  }

  /** The number a string of decimal digits spells. */
  function DigitsValue(s: string): nat
    requires AllDigits(s)
  {
    if s == [] then 0 else DigitsValue(s[..|s| - 1]) * 10 + (s[|s| - 1] as int - '0' as int)
  }

  /** The bounds of PHP's 64-bit `int`. */
  const IntMin := -0x8000_0000_0000_0000
  const IntMax := 0x7fff_ffff_ffff_ffff

  /** `filter_var($s, FILTER_VALIDATE_INT)` on a string: an optional sign, then
      either `0` or digits without a leading zero, within PHP's `int` range. */
  function ParseInt(s: string): (r: Option<int>)
    ensures r.Some? ==> IntMin <= r.value <= IntMax
    ensures r.Some? ==> s != [] && forall i :: 0 < i < |s| ==> IsDigit(s[i])
  {
    var signed := s != [] && (s[0] == '-' || s[0] == '+');
    var digits := if signed then s[1..] else s;
    if digits == [] || !AllDigits(digits) || (digits[0] == '0' && |digits| > 1) then None
    else
      var n: int := if signed && s[0] == '-' then 0 - DigitsValue(digits) as int else DigitsValue(digits);
      if IntMin <= n <= IntMax then Some(n) else None
  }

  /** The integer a value holds in the sense of `FILTER_VALIDATE_INT`: an
      `int` as it is, a string as `ParseInt` reads it, nothing else. */
  function IntegerValue(v: Value): (r: Option<int>)
    ensures v.Int? ==> r == Some(v.i)
    ensures v.Str? ==> r == ParseInt(v.s)
    ensures v.Null? || v.Time? ==> r == None
  {
    match v
    case Int(i) => Some(i)
    case Str(s) => ParseInt(s)
    case _ => None
  }

  /** The decimal spelling of a natural number, as PHP prints it. */
  function DecimalString(n: nat): (r: string)
    ensures r != [] && AllDigits(r) && (r[0] == '0' ==> |r| == 1)
    ensures DigitsValue(r) == n
  {
    var last := [('0' as int + n % 10) as char];
    if n < 10 then last
    else
      var r := DecimalString(n / 10) + last;
      assert r[..|r| - 1] == DecimalString(n / 10);
      r
  }

  /** Reading back a printed number gives the number: a digit string such as
      the query string's `"20"` is the integer 20. */
  lemma ParseDecimalString(n: nat)
    requires n <= IntMax
    ensures ParseInt(DecimalString(n)) == Some(n)
  {
  }

  /** A digit string without a leading zero (other than `"0"` itself). */
  predicate Canonical(d: string) {
    d != [] && AllDigits(d) && (d[0] == '0' ==> |d| == 1)
  }

  lemma {:induction false} LeadingDigitPositive(d: string)
    requires d != [] && AllDigits(d) && d[0] != '0'
    ensures DigitsValue(d) > 0
  {
    if |d| > 1 {
      var init := d[..|d| - 1];
      assert init[0] == d[0];
      LeadingDigitPositive(init);
    }
  }

  /** A canonical digit string is the decimal spelling of the number it spells. */
  lemma {:induction false} CanonicalIsDecimal(d: string)
    requires Canonical(d)
    ensures d == DecimalString(DigitsValue(d))
  {
    var n := DigitsValue(d);
    var init := d[..|d| - 1];
    if |d| == 1 {
      assert init == [] && DigitsValue(init) == 0;
      assert n == DigitsValue(init) * 10 + (d[|d| - 1] as int - '0' as int);
      assert n < 10;
    } else {
      assert init[0] == d[0] && d[0] != '0';
      LeadingDigitPositive(init);
      CanonicalIsDecimal(init);
      assert n / 10 == DigitsValue(init) && n % 10 == d[|d| - 1] as int - '0' as int;
      assert d == init + [d[|d| - 1]];
    }
  }

  /** What `ParseInt` reads is a decimal spelling of the result. */
  lemma ParsedIsSpelled(s: string)
    requires ParseInt(s).Some?
    ensures var n := ParseInt(s).value;
            (n >= 0 && s == DecimalString(n)) ||
            (n >= 0 && s == "+" + DecimalString(n)) ||
            (n <= 0 && s == "-" + DecimalString(-n))
  {
    var signed := s[0] == '-' || s[0] == '+';
    var digits := if signed then s[1..] else s;
    CanonicalIsDecimal(digits);
    if signed {
      assert s == [s[0]] + digits;
    }
  }

  /** A spelling with a sign character in front is read as its digits are. */
  lemma SignedSpellingParses(c: char, m: nat)
    requires c == '+' || c == '-'
    requires if c == '-' then m <= -IntMin else m <= IntMax
    ensures ParseInt([c] + DecimalString(m)) == Some(if c == '-' then 0 - m else m)
  {
    var s := [c] + DecimalString(m);
    assert s[1..] == DecimalString(m);
  }

  /** Every spelling of an integer in range is read as that integer. */
  lemma SpelledIsParsed(n: int)
    requires IntMin <= n <= IntMax
    ensures n >= 0 ==> ParseInt(DecimalString(n)) == Some(n) && ParseInt("+" + DecimalString(n)) == Some(n)
    ensures n <= 0 ==> ParseInt("-" + DecimalString(-n)) == Some(n)
  {
    if n >= 0 {
      ParseDecimalString(n);
      SignedSpellingParses('+', n);
    }
    if n <= 0 {
      SignedSpellingParses('-', -n);
    }
  }

  /** `ParseInt` reads exactly the decimal spellings of the integers in range:
      a non-negative number as its digits, optionally after `+`, a
      non-positive one after `-`; never a leading zero or a lone sign. */
  lemma ParseIntExact(s: string, n: int)
    ensures ParseInt(s) == Some(n) <==>
              && IntMin <= n <= IntMax
              && ((n >= 0 && s == DecimalString(n)) ||
                  (n >= 0 && s == "+" + DecimalString(n)) ||
                  (n <= 0 && s == "-" + DecimalString(-n)))
  {
    if ParseInt(s) == Some(n) {
      ParsedIsSpelled(s);
    }
    if IntMin <= n <= IntMax {
      SpelledIsParsed(n);
    }
  }

  /** Samples: a sign is read, a leading zero or a lone sign is not. */
  lemma ParseIntSamples()
    ensures ParseInt("-5") == Some(-5) && ParseInt("+0") == Some(0) && ParseInt("-0") == Some(0)
    ensures ParseInt("007") == None && ParseInt("-") == None && ParseInt("") == None
  {
    assert "-5"[1..] == "5" && "+0"[1..] == "0" && "-0"[1..] == "0";
    assert DigitsValue("5") == 5 by { assert "5"[..0] == []; }
    assert DigitsValue("0") == 0 by { assert "0"[..0] == []; }
  }
}

=== FILE: pipeline.dfy ===
/**
  The whole path of one log entry: `store` acknowledges a submission and
  dispatches its job, a single sequential worker takes the job off the queue
  and writes the document, and `show`/`index` read it back.
 */
module Pipeline {
  import opened PhpValues
  import opened Uuid
  import opened LogModel
  import opened Query
  import opened Jobs
  import opened Services
  import opened Requests
  import opened Controller

  /** One step of a worker draining the queue: take the oldest job and run
      its `handle`. `newId`, `newTrace` and `now` are what `Str::uuid()` and
      `now()` yield inside the job. */
  method WorkNext(queue: JobQueue, logs: LogCollection, newId: string, newTrace: string, now: int)
    returns (outcome: Option<Result<Attrs, CreateError>>)
    requires logs.Valid()
    requires IsUuid(newId) && IsUuid(newTrace)
    modifies queue, logs
    ensures logs.Valid()
    ensures old(queue.pending) == [] ==>
              outcome == None && queue.pending == [] && logs.documents == old(logs.documents)
    ensures old(queue.pending) != [] ==>
              && queue.pending == old(queue.pending)[1..]
              && outcome == Some(CreateOutcome(old(logs.documents), Refilled(old(queue.pending)[0], newId, newTrace, now), newId, newTrace, now))
              && logs.documents == if outcome.value.Success? then old(logs.documents) + [outcome.value.value] else old(logs.documents)
  {
    UuidIsFilled(newId);
    UuidIsFilled(newTrace);
    var next := queue.Pop();
    if next.None? {
      return None;
    }
    var job := new ProcessLogEntry(next.value);
    var r := job.Handle(logs, newId, newTrace, now);
    outcome := Some(r);
  }

  /** The worker's re-fill leaves a `createAsync` payload untouched exactly
      when the submission's `trace_id` and `timestamp` are each unset or not
      empty. */
  lemma WorkerKeepsAsyncPayload(data: Attrs, newTrace: string, newId: string, now: int,
                                  workerId: string, workerTrace: string, workerNow: int)
    requires IsUuid(newTrace) && IsUuid(newId) && IsUuid(workerId) && IsUuid(workerTrace)
    ensures var payload := AsyncPayload(data, newTrace, newId, now);
            Refilled(payload, workerId, workerTrace, workerNow) == payload <==>
              (!Isset(data, "trace_id") || !Empty(data["trace_id"])) &&
              (!Isset(data, "timestamp") || !Empty(data["timestamp"]))
  {
    UuidIsFilled(newTrace);
    UuidIsFilled(newId);
    UuidIsFilled(workerId);
    UuidIsFilled(workerTrace);
    RefillChangesOnlyIncomplete(AsyncPayload(data, newTrace, newId, now), workerId, workerTrace, workerNow);
  }

  /** The identifiers `createAsync` returns are the ones the worker stores:
      the document written for its payload has `_id` equal to the returned
      `id`, `trace_id` equal to the returned `trace_id` (the supplied one when
      it was set), and lookup by the returned `id` finds it. The write fails
      exactly when the id is already taken or the timestamp is a string that
      reads as no date. */
  lemma AcknowledgedIdsAreStored(docs: seq<Attrs>, data: Attrs, newTrace: string, newId: string, now: int,
                                   workerId: string, workerTrace: string, workerNow: int)
    requires IsUuid(newTrace) && IsUuid(newId) && IsUuid(workerId) && IsUuid(workerTrace)
    requires !Isset(data, "trace_id") || !Empty(data["trace_id"])
    ensures var payload := AsyncPayload(data, newTrace, newId, now);
            var r := CreateOutcome(docs, Refilled(payload, workerId, workerTrace, workerNow), workerId, workerTrace, workerNow);
            && (r.Success? <==> FindIn(docs, Str(newId)).None? && !UnreadableDate(Refilled(payload, workerId, workerTrace, workerNow)["timestamp"]))
            && (r.Success? ==>
                  && r.value["_id"] == Str(newId)
                  && r.value["trace_id"] == payload["trace_id"]
                  && (Isset(data, "trace_id") ==> r.value["trace_id"] == data["trace_id"])
                  && FindIn(docs + [r.value], Str(newId)) == Some(r.value))
  {
    UuidIsFilled(newTrace);
    UuidIsFilled(newId);
    UuidIsFilled(workerId);
    UuidIsFilled(workerTrace);
    var payload := AsyncPayload(data, newTrace, newId, now);
    var refilled := Refilled(payload, workerId, workerTrace, workerNow);
    assert refilled["_id"] == Str(newId) && refilled["trace_id"] == payload["trace_id"];
    HandleWritesPayload(docs, payload, workerId, workerTrace, workerNow);
    HandleFailsOnlyOn(docs, payload, workerId, workerTrace, workerNow);
    var r := CreateOutcome(docs, refilled, workerId, workerTrace, workerNow);
    if r.Success? {
      FindInAppend(docs, r.value, Str(newId));
    }
  }

  /** A supplied but empty `trace_id` is echoed to the client by `createAsync`
      and replaced by the worker, so the two disagree. Laravel's default
      `ConvertEmptyStringsToNull` middleware turns a submitted `""` into null
      before the request reaches the controller; the divergence needs that
      middleware to be absent, or a caller of `createAsync` other than
      `store`. */
  lemma EmptyTraceIdDiverges(docs: seq<Attrs>, data: Attrs, newTrace: string, newId: string, now: int,
                             workerId: string, workerTrace: string, workerNow: int)
    requires IsUuid(newTrace) && IsUuid(newId) && IsUuid(workerId) && IsUuid(workerTrace)
    requires "trace_id" in data && data["trace_id"] == Str("")
    ensures var payload := AsyncPayload(data, newTrace, newId, now);
            var r := CreateOutcome(docs, Refilled(payload, workerId, workerTrace, workerNow), workerId, workerTrace, workerNow);
            payload["trace_id"] == Str("") &&
            (r.Success? ==> r.value["trace_id"] == Str(workerTrace) && r.value["trace_id"] != payload["trace_id"])
  {
    UuidIsFilled(newId);
    UuidIsFilled(workerId);
    UuidIsFilled(workerTrace);
    var payload := AsyncPayload(data, newTrace, newId, now);
    HandleWritesPayload(docs, payload, workerId, workerTrace, workerNow);
  }

  /** Validation lets an empty `trace_id` through: its rules are skipped on a
      blank string (which reaches the validator only without the
      `ConvertEmptyStringsToNull` middleware). */
  lemma EmptyTraceIdPassesValidation()
    ensures StoreRequestValid(map["message" := Str("boom"), "level" := Str("error"),
                                  "service_name" := Str("api"), "trace_id" := Str("")])
  {
    assert !Blank("boom") by { assert !TrimmedChar("boom"[0]); }
    assert !Blank("error") by { assert !TrimmedChar("error"[0]); }
    assert !Blank("api") by { assert !TrimmedChar("api"[0]); }
  }

  /** A redelivered job whose payload is complete cannot add a second
      document: its `_id` is already taken, so the retry fails and the
      collection keeps the one document it has for that id. */
  lemma RedeliveryAddsNoDuplicate(docs: seq<Attrs>, payload: Attrs, newId: string, newTrace: string, now: int,
                                    retryId: string, retryTrace: string, retryNow: int)
    requires IsUuid(newId) && IsUuid(newTrace) && IsUuid(retryId) && IsUuid(retryTrace)
    requires UniqueKeys(docs)
    requires !Missing(payload, "_id") && !Missing(payload, "trace_id") && !Missing(payload, "timestamp")
    requires CreateOutcome(docs, Refilled(payload, newId, newTrace, now), newId, newTrace, now).Success?
    ensures var first := CreateOutcome(docs, Refilled(payload, newId, newTrace, now), newId, newTrace, now).value;
            var retry := CreateOutcome(docs + [first], Refilled(payload, retryId, retryTrace, retryNow), retryId, retryTrace, retryNow);
            && first["_id"] == payload["_id"]
            && retry == Failure(DuplicateKey(payload["_id"]))
            && FindIn(docs + [first], payload["_id"]) == Some(first)
  {
    UuidIsFilled(newId);
    UuidIsFilled(newTrace);
    UuidIsFilled(retryId);
    UuidIsFilled(retryTrace);
    RefillChangesOnlyIncomplete(payload, newId, newTrace, now);
    RefillChangesOnlyIncomplete(payload, retryId, retryTrace, retryNow);
    var first := CreateOutcome(docs, payload, newId, newTrace, now).value;
    HandleWritesPayload(docs, payload, newId, newTrace, now);
    FindInAppend(docs, first, payload["_id"]);
    HandleWritesPayload(docs + [first], payload, retryId, retryTrace, retryNow);
  }

  /** On a valid submission, a `trace_id` other than the empty string that
      survives validation is not empty in PHP's sense. */
  lemma SubmittedTraceIdNotEmpty(input: Attrs)
    requires StoreRequestValid(input) && Get(input, "trace_id") != Str("")
    ensures var data := Validated(input);
            Isset(data, "trace_id") ==> !Empty(data["trace_id"])
  {
    var data := Validated(input);
    assert !Blank("0") by { assert !TrimmedChar("0"[0]); }
    if Isset(data, "trace_id") && !BlankValue(data["trace_id"]) {
      UuidIsFilled(data["trace_id"].s);
    }
  }

  /** Filtering on a document's own service and level finds it. */
  lemma ServiceLevelMatches(doc: Attrs, service: Value, level: Value)
    requires Get(doc, "service_name") == service && Get(doc, "level") == level
    ensures Matches(map["service_name" := service, "level" := level], doc)
  {
    var filters := map["service_name" := service, "level" := level];
    assert ConvertDates(filters) == filters;
  }

  /** The document the worker writes for a submission whose `trace_id` is
      unset or not empty carries the acknowledged identifiers and the
      submitted message, level and service, is found by the acknowledged id,
      and is among the results of a search on its own service and level. */
  lemma StoredSubmission(docs: seq<Attrs>, data: Attrs, newTrace: string, newId: string, now: int,
                           workerId: string, workerTrace: string, workerNow: int)
    requires "message" in data && "level" in data && "service_name" in data
    requires !Isset(data, "trace_id") || !Empty(data["trace_id"])
    requires IsUuid(newTrace) && IsUuid(newId) && IsUuid(workerId) && IsUuid(workerTrace)
    ensures var payload := AsyncPayload(data, newTrace, newId, now);
            var refilled := Refilled(payload, workerId, workerTrace, workerNow);
            var r := CreateOutcome(docs, refilled, workerId, workerTrace, workerNow);
            && (r.Success? <==> FindIn(docs, Str(newId)).None? && !UnreadableDate(refilled["timestamp"]))
            && (r.Success? ==>
                  && Get(r.value, "_id") == Str(newId)
                  && Get(r.value, "trace_id") == payload["trace_id"]
                  && Get(r.value, "message") == data["message"]
                  && Get(r.value, "level") == data["level"]
                  && Get(r.value, "service_name") == data["service_name"]
                  && Get(r.value, "timestamp").Time?
                  && FindIn(docs + [r.value], Str(newId)) == Some(r.value)
                  && Matches(map["service_name" := data["service_name"], "level" := data["level"]], r.value))
  {
    UuidIsFilled(workerId);
    UuidIsFilled(workerTrace);
    var payload := AsyncPayload(data, newTrace, newId, now);
    AcknowledgedIdsAreStored(docs, data, newTrace, newId, now, workerId, workerTrace, workerNow);
    var refilled := Refilled(payload, workerId, workerTrace, workerNow);
    var r := CreateOutcome(docs, refilled, workerId, workerTrace, workerNow);
    if r.Success? {
      HandleWritesPayload(docs, payload, workerId, workerTrace, workerNow);
      assert "message" in Fillable && "level" in Fillable && "service_name" in Fillable;
      ServiceLevelMatches(r.value, data["service_name"], data["level"]);
    }
  }

  /** POST a log, let the worker run the one job on the queue, then GET it back. */
  method SubmitProcessShow(service: LogService, input: Attrs, newTrace: string, newId: string, now: int,
                           workerId: string, workerTrace: string, workerNow: int)
    returns (ack: Response, written: Option<Result<Attrs, CreateError>>, shown: Response)
    requires service.queue.pending == []
    requires service.repository.logs.Valid()
    requires StoreRequestValid(input) && Get(input, "trace_id") != Str("")
    requires IsUuid(newTrace) && IsUuid(newId) && IsUuid(workerId) && IsUuid(workerTrace)
    modifies service.queue, service.repository.logs
    ensures service.repository.logs.Valid() && service.queue.pending == []
    ensures ack.status == 202 && ack.body.Acknowledged? && ack.body.id == newId
    ensures written.Some?
    ensures written.value.Success? <==>
              old(service.repository.logs.Find(newId)).None? &&
              !UnreadableDate(Refilled(AsyncPayload(Validated(input), newTrace, newId, now), workerId, workerTrace, workerNow)["timestamp"])
    ensures written.value.Success? ==>
              && shown == Response(200, Entry(written.value.value))
              && Get(shown.body.record, "_id") == Str(ack.body.id)
              && Get(shown.body.record, "trace_id") == ack.body.traceId
              && Get(shown.body.record, "message") == input["message"]
              && Get(shown.body.record, "level") == input["level"]
              && Get(shown.body.record, "service_name") == input["service_name"]
              && Get(shown.body.record, "timestamp").Time?
              && Matches(map["service_name" := input["service_name"], "level" := input["level"]], shown.body.record)
  {
    ghost var docs := service.repository.logs.documents;
    ack := Store(service, input, newTrace, newId, now);
    written := WorkNext(service.queue, service.repository.logs, workerId, workerTrace, workerNow);
    shown := Show(service, newId);
    SubmittedTraceIdNotEmpty(input);
    StoredSubmission(docs, Validated(input), newTrace, newId, now, workerId, workerTrace, workerNow);
  }
}

=== FILE: process_log_entry.dfy ===
/**
  The queued job `ProcessLogEntry` and the queue it travels on. The job
  re-fills `_id`, `trace_id` and `timestamp` on a copy of its payload when they
  are missing or empty, then creates one `Log` document.
 */
module Jobs {
  import opened PhpValues
  import opened LogModel
  import opened Dates

  /** The queue that `dispatch` pushes job payloads onto, oldest first. */
  class JobQueue {
    var pending: seq<Attrs>

    constructor ()
      ensures pending == []
    {
      pending := [];
    }

    /** `ProcessLogEntry::dispatch($data)`: exactly one job joins the back of the queue. */
    method Dispatch(payload: Attrs)
      modifies this
      ensures pending == old(pending) + [payload]
    {
      pending := pending + [payload];
    }

    /** A worker takes the oldest job, if there is one. */
    method Pop() returns (next: Option<Attrs>)
      modifies this
      ensures old(pending) == [] ==> next == None && pending == []
      ensures old(pending) != [] ==> next == Some(old(pending)[0]) && pending == old(pending)[1..]
    {
      if pending == [] {
        next := None;
      } else {
        next := Some(pending[0]);
        pending := pending[1..];
      }
    }
  }

  /** The payload `handle` writes: each of `_id`, `trace_id` and `timestamp`
      that is missing or empty gets a fresh UUID or the current time; a
      non-empty one is kept; every other key is left alone. */
  function Refilled(data: Attrs, newId: string, newTrace: string, now: int): (r: Attrs)
    requires newId != "" && newId != "0" && newTrace != "" && newTrace != "0"
    ensures !Missing(r, "_id") && !Missing(r, "trace_id") && !Missing(r, "timestamp")
    ensures r.Keys == data.Keys + {"_id", "trace_id", "timestamp"}
    ensures r["_id"] == (if Missing(data, "_id") then Str(newId) else data["_id"])
    ensures r["trace_id"] == (if Missing(data, "trace_id") then Str(newTrace) else data["trace_id"])
    ensures r["timestamp"] == (if Missing(data, "timestamp") then Time(now) else data["timestamp"])
    ensures forall k :: k in data && k != "_id" && k != "trace_id" && k != "timestamp" ==> r[k] == data[k]
  {
    var a := if Missing(data, "_id") then data["_id" := Str(newId)] else data;
    var b := if Missing(a, "trace_id") then a["trace_id" := Str(newTrace)] else a;
    if Missing(b, "timestamp") then b["timestamp" := Time(now)] else b
  }

  /** A payload whose `_id`, `trace_id` and `timestamp` are all non-empty is
      written as received; otherwise the re-fill changes it. */
  lemma RefillChangesOnlyIncomplete(data: Attrs, newId: string, newTrace: string, now: int)
    requires newId != "" && newId != "0" && newTrace != "" && newTrace != "0"
    ensures Refilled(data, newId, newTrace, now) == data <==>
              !Missing(data, "_id") && !Missing(data, "trace_id") && !Missing(data, "timestamp")
  {
    var r := Refilled(data, newId, newTrace, now);
    if r == data {
      assert !Missing(r, "_id") && !Missing(r, "trace_id") && !Missing(r, "timestamp");
    }
  }

  /** What `failed()` reports: the job's original payload and the exception message. */
  datatype FailureReport = FailureReport(data: Attrs, exception: string)

  class ProcessLogEntry {
    /** The number of times the job may be attempted. */
    const tries: nat := 3
    /** The number of seconds the job may run before timing out. */
    const timeout: nat := 60
    /** The payload the job was dispatched with; `handle` only reads it. */
    const logData: Attrs

    constructor (logData: Attrs)
      ensures this.logData == logData
    {
      this.logData := logData;
    }

    /** `handle()`: re-fill a copy of the payload, then `Log::create` it. The
        same fresh UUIDs are offered to the model's `creating` hook, which
        leaves the re-filled `_id` and `trace_id` alone. */
    method Handle(logs: LogCollection, newId: string, newTrace: string, now: int) returns (r: Result<Attrs, CreateError>)
      requires logs.Valid()
      requires newId != "" && newId != "0" && newTrace != "" && newTrace != "0"
      modifies logs
      ensures logs.Valid()
      ensures r == CreateOutcome(old(logs.documents), Refilled(logData, newId, newTrace, now), newId, newTrace, now)
      ensures logs.documents == if r.Success? then old(logs.documents) + [r.value] else old(logs.documents)
    {
      var data := logData;
      if !Isset(data, "_id") || Empty(data["_id"]) {
        data := data["_id" := Str(newId)];
      }
      if !Isset(data, "trace_id") || Empty(data["trace_id"]) {
        data := data["trace_id" := Str(newTrace)];
      }
      if !Isset(data, "timestamp") || Empty(data["timestamp"]) {
        data := data["timestamp" := Time(now)];
      }
      r := logs.Create(data, newId, newTrace, now);
    }

    /** `failed($exception)`: report the untouched payload with the message. */
    function Failed(exception: string): (report: FailureReport)
      ensures report.data == logData && report.exception == exception
    {
      FailureReport(logData, exception)
    }
  }

  /** The document `handle` writes carries the re-filled `_id`, `trace_id` and
      `timestamp` (the timestamp as a date: a date object as it is, a date
      string as the instant it names), and every other fillable key of the
      payload unchanged. */
  lemma HandleWritesPayload(docs: seq<Attrs>, data: Attrs, newId: string, newTrace: string, now: int)
    requires newId != "" && newId != "0" && newTrace != "" && newTrace != "0"
    ensures var p := Refilled(data, newId, newTrace, now);
            var r := CreateOutcome(docs, p, newId, newTrace, now);
            r.Success? ==>
              && r.value["_id"] == p["_id"]
              && r.value["trace_id"] == p["trace_id"]
              && r.value["timestamp"].Time?
              && (p["timestamp"].Time? ==> r.value["timestamp"] == p["timestamp"])
              && (p["timestamp"].Str? && ParseDate(p["timestamp"].s).Some? ==>
                    r.value["timestamp"] == Time(ParseDate(p["timestamp"].s).value))
              && forall k :: k in data && k in Fillable && k != "_id" && k != "trace_id" && k != "timestamp" ==>
                   k in r.value && r.value[k] == data[k]
  {
    var p := Refilled(data, newId, newTrace, now);
    match Fill(p)
    case Failure(_) =>
    case Success(attrs) =>
      assert Identified(attrs);
      CreatingKeepsIdentified(attrs, newId, newTrace);
      assert !Empty(p["timestamp"]);
  }

  /** The write fails exactly when the payload's timestamp is a string that
      is neither an integer nor a date, or when the collection already holds
      its `_id`. */
  lemma HandleFailsOnlyOn(docs: seq<Attrs>, data: Attrs, newId: string, newTrace: string, now: int)
    requires newId != "" && newId != "0" && newTrace != "" && newTrace != "0"
    ensures var p := Refilled(data, newId, newTrace, now);
            var r := CreateOutcome(docs, p, newId, newTrace, now);
            r.Failure? <==> (UnreadableDate(p["timestamp"]) || FindIn(docs, p["_id"]).Some?)
  {
    var p := Refilled(data, newId, newTrace, now);
    if Fill(p).Success? {
      CreatingKeepsIdentified(Fill(p).value, newId, newTrace);
    }
  }
}

=== FILE: query.dfy ===
/**
  What `LogRepository::search` asks of the document store: a conjunction of
  optional `where` conditions, an ordering by `timestamp` descending, and one
  page of the result. Values of different BSON types are ordered as MongoDB
  orders them (null and missing first, then numbers, then strings, then dates),
  and a range condition only compares values of the same type.
 */
module Query {
  import opened PhpValues
  import opened Dates

  // ---------------------------------------------------------------------------
  // Ordering of values

  /** Position of a value's type in MongoDB's cross-type sort order. */
  function TypeRank(v: Value): nat {
    match v
    case Null => 0
    case Int(_) => 1
    case Str(_) => 2
    case Time(_) => 3
  }

  /** Lexicographic order on strings, by code point. */
  predicate StrLe(a: string, b: string) {
    a == [] || (b != [] && (a[0] < b[0] || (a[0] == b[0] && StrLe(a[1..], b[1..]))))
  }

  lemma {:induction false} StrLeTotal(a: string, b: string)
    ensures StrLe(a, b) || StrLe(b, a)
  {
    if a != [] && b != [] && a[0] == b[0] {
      StrLeTotal(a[1..], b[1..]);
    }
  }

  lemma {:induction false} StrLeTransitive(a: string, b: string, c: string)
    requires StrLe(a, b) && StrLe(b, c)
    ensures StrLe(a, c)
  {
    if a != [] && a[0] == b[0] && b[0] == c[0] {
      StrLeTransitive(a[1..], b[1..], c[1..]);
    }
  }

  /** `a` sorts at or before `b` in ascending order. */
  predicate ValueLe(a: Value, b: Value) {
    TypeRank(a) < TypeRank(b) ||
    (TypeRank(a) == TypeRank(b) &&
      match (a, b)
      case (Int(x), Int(y)) => x <= y
      case (Str(x), Str(y)) => StrLe(x, y)
      case (Time(x), Time(y)) => x <= y
      case _ => true)
  }

  lemma ValueLeTotal(a: Value, b: Value)
    ensures ValueLe(a, b) || ValueLe(b, a)
  {
    if a.Str? && b.Str? {
      StrLeTotal(a.s, b.s);
    }
  }

  lemma ValueLeTransitive(a: Value, b: Value, c: Value)
    requires ValueLe(a, b) && ValueLe(b, c)
    ensures ValueLe(a, c)
  {
    if a.Str? && b.Str? && c.Str? {
      StrLeTransitive(a.s, b.s, c.s);
    }
  }

  // ---------------------------------------------------------------------------
  // Conditions and filters

  datatype Op = Eq | Gte | Lte

  /** One `$query->where($field, $op, $operand)` call. */
  datatype Condition = Where(field: string, op: Op, operand: Value)

  /** How the store evaluates one condition on a document. A missing field
      reads as null; a range condition needs operands of the same type. */
  predicate Holds(c: Condition, doc: Attrs) {
    var v := Get(doc, c.field);
    match c.op
    case Eq => v == c.operand
    case Gte => TypeRank(v) == TypeRank(c.operand) && ValueLe(c.operand, v)
    case Lte => TypeRank(v) == TypeRank(c.operand) && ValueLe(v, c.operand)
  }

  /** A document satisfies a query when it satisfies every condition on it. */
  predicate HoldsAll(query: seq<Condition>, doc: Attrs) {
    forall i :: 0 <= i < |query| ==> Holds(query[i], doc)
  }

  /** The five guarded `where` calls of the search as written, key by key:
      every filter that is set and not empty constrains the document with its
      value as received; the others constrain nothing. */
  predicate MatchesAsWritten(filters: Attrs, doc: Attrs) {
    && (Filled(filters, "trace_id") ==> Get(doc, "trace_id") == filters["trace_id"])
    && (Filled(filters, "level") ==> Get(doc, "level") == filters["level"])
    && (Filled(filters, "service_name") ==> Get(doc, "service_name") == filters["service_name"])
    && (Filled(filters, "date_from") ==>
          TypeRank(Get(doc, "timestamp")) == TypeRank(filters["date_from"]) &&
          ValueLe(filters["date_from"], Get(doc, "timestamp")))
    && (Filled(filters, "date_to") ==>
          TypeRank(Get(doc, "timestamp")) == TypeRank(filters["date_to"]) &&
          ValueLe(Get(doc, "timestamp"), filters["date_to"]))
  }

  /** A date bound read as the instant it denotes, as a BSON date; anything
      else as it is. */
  function DateOperand(v: Value): (r: Value)
    ensures v.Str? && ParseDate(v.s).Some? ==> r == Time(ParseDate(v.s).value)
    ensures !(v.Str? && ParseDate(v.s).Some?) ==> r == v
    ensures Empty(r) <==> Empty(v)
  {
    DateIsNotInteger(if v.Str? then v.s else "");
    if v.Str? && ParseDate(v.s).Some? then Time(ParseDate(v.s).value) else v
  }

  /** The filters with `date_from` and `date_to` read as dates. */
  function ConvertDates(filters: Attrs): (r: Attrs)
    ensures r.Keys == filters.Keys
    ensures forall k :: k in r && k != "date_from" && k != "date_to" ==> r[k] == filters[k]
    ensures forall k :: k in r && (k == "date_from" || k == "date_to") ==> r[k] == DateOperand(filters[k])
  {
    map k | k in filters :: if k == "date_from" || k == "date_to" then DateOperand(filters[k]) else filters[k]
  }

  /** The meaning of a set of search filters: the guarded conditions, with
      the date bounds compared as dates. */
  predicate Matches(filters: Attrs, doc: Attrs) {
    MatchesAsWritten(ConvertDates(filters), doc)
  }

  /** As written, a date bound reaches the store as the string it was sent as,
      and a string never compares with a date: no document whose timestamp is a
      date matches. */
  lemma RawDateFilterMissesDates(filters: Attrs, doc: Attrs)
    requires Get(doc, "timestamp").Time?
    requires (Filled(filters, "date_from") && filters["date_from"].Str?) ||
             (Filled(filters, "date_to") && filters["date_to"].Str?)
    ensures !MatchesAsWritten(filters, doc)
  {
  }

  /** Dropping one date bound from the filters drops its converted bound. */
  lemma ConvertDatesWithout(filters: Attrs, k: string)
    requires k == "date_from" || k == "date_to"
    ensures ConvertDates(filters - {k}) == ConvertDates(filters) - {k}
  {
  }

  /** A filled lower bound is one conjunct of the search as written. */
  lemma LowerBoundConjunct(c: Attrs, doc: Attrs)
    requires Filled(c, "date_from")
    ensures MatchesAsWritten(c, doc) <==>
              MatchesAsWritten(c - {"date_from"}, doc) &&
              TypeRank(Get(doc, "timestamp")) == TypeRank(c["date_from"]) && ValueLe(c["date_from"], Get(doc, "timestamp"))
  {
    var rest := c - {"date_from"};
    assert Filled(rest, "trace_id") == Filled(c, "trace_id");
    assert Filled(rest, "level") == Filled(c, "level");
    assert Filled(rest, "service_name") == Filled(c, "service_name");
    assert Filled(rest, "date_to") == Filled(c, "date_to");
  }

  /** A filled upper bound is one conjunct of the search as written. */
  lemma UpperBoundConjunct(c: Attrs, doc: Attrs)
    requires Filled(c, "date_to")
    ensures MatchesAsWritten(c, doc) <==>
              MatchesAsWritten(c - {"date_to"}, doc) &&
              TypeRank(Get(doc, "timestamp")) == TypeRank(c["date_to"]) && ValueLe(Get(doc, "timestamp"), c["date_to"])
  {
    var rest := c - {"date_to"};
    assert Filled(rest, "trace_id") == Filled(c, "trace_id");
    assert Filled(rest, "level") == Filled(c, "level");
    assert Filled(rest, "service_name") == Filled(c, "service_name");
    assert Filled(rest, "date_from") == Filled(c, "date_from");
  }

  /** Read as a date, a lower bound keeps exactly the documents stamped at or
      after it, whatever the other filters and the rest of the document. */
  lemma LowerDateBound(filters: Attrs, doc: Attrs)
    requires "date_from" in filters && filters["date_from"].Str? && ParseDate(filters["date_from"].s).Some?
    ensures Matches(filters, doc) <==>
              && Matches(filters - {"date_from"}, doc)
              && Get(doc, "timestamp").Time?
              && ParseDate(filters["date_from"].s).value <= Get(doc, "timestamp").t
  {
    var c := ConvertDates(filters);
    ConvertDatesWithout(filters, "date_from");
    assert c["date_from"] == Time(ParseDate(filters["date_from"].s).value);
    LowerBoundConjunct(c, doc);
  }

  /** Read as a date, an upper bound keeps exactly the documents stamped at or
      before it, whatever the other filters and the rest of the document. */
  lemma UpperDateBound(filters: Attrs, doc: Attrs)
    requires "date_to" in filters && filters["date_to"].Str? && ParseDate(filters["date_to"].s).Some?
    ensures Matches(filters, doc) <==>
              && Matches(filters - {"date_to"}, doc)
              && Get(doc, "timestamp").Time?
              && Get(doc, "timestamp").t <= ParseDate(filters["date_to"].s).value
  {
    var c := ConvertDates(filters);
    ConvertDatesWithout(filters, "date_to");
    assert c["date_to"] == Time(ParseDate(filters["date_to"].s).value);
    UpperBoundConjunct(c, doc);
  }

  /** Both bounds at once: the corrected search keeps exactly the documents
      the other filters keep whose timestamp lies between the two instants. */
  lemma DateFilterMatchesInstant(filters: Attrs, doc: Attrs)
    requires "date_from" in filters && filters["date_from"].Str? && ParseDate(filters["date_from"].s).Some?
    requires "date_to" in filters && filters["date_to"].Str? && ParseDate(filters["date_to"].s).Some?
    ensures Matches(filters, doc) <==>
              && Matches(filters - {"date_from", "date_to"}, doc)
              && Get(doc, "timestamp").Time?
              && ParseDate(filters["date_from"].s).value <= Get(doc, "timestamp").t <= ParseDate(filters["date_to"].s).value
  {
    LowerDateBound(filters, doc);
    var rest := filters - {"date_from"};
    assert rest - {"date_to"} == filters - {"date_from", "date_to"};
    UpperDateBound(rest, doc);
  }

  /** A stored log stamped 2024-02-29 12:30:05 and the bound `date_from=1970-01-01`:
      the search as written misses it, the corrected one finds it. */
  lemma DateFilterExample()
    ensures var filters, doc := map["date_from" := Str("1970-01-01")], map["timestamp" := Time(1709209805)];
            !MatchesAsWritten(filters, doc) && Matches(filters, doc)
  {
    EpochIsZero();
    var filters := map["date_from" := Str("1970-01-01")];
    assert ConvertDates(filters)["date_from"] == Time(0);
  }

  /** Filters that are all unset, null or empty match every document. */
  lemma EmptyFiltersMatchAll(filters: Attrs, doc: Attrs)
    requires forall k :: k in filters ==> Empty(filters[k])
    ensures Matches(filters, doc)
  {
  }

  /** The documents that satisfy a query, in collection order. */
  function Execute(docs: seq<Attrs>, query: seq<Condition>): (r: seq<Attrs>)
    ensures |r| <= |docs|
    ensures forall d :: d in r <==> d in docs && HoldsAll(query, d)
  {
    if docs == [] then []
    else (if HoldsAll(query, docs[0]) then [docs[0]] else []) + Execute(docs[1..], query)
  }

  /** The documents that match a set of filters, in collection order. */
  function Select(docs: seq<Attrs>, filters: Attrs): seq<Attrs> {
    if docs == [] then []
    else (if Matches(filters, docs[0]) then [docs[0]] else []) + Select(docs[1..], filters)
  }

  /** Selection keeps exactly the matching documents, each as often as the collection holds it. */
  lemma {:induction false} SelectExact(docs: seq<Attrs>, filters: Attrs)
    ensures forall d :: multiset(Select(docs, filters))[d] == if Matches(filters, d) then multiset(docs)[d] else 0
    ensures forall d :: d in Select(docs, filters) <==> d in docs && Matches(filters, d)
  {
    if docs != [] {
      SelectExact(docs[1..], filters);
      assert docs == [docs[0]] + docs[1..];
    }
  }

  /** A query whose conditions mean the filters selects what the filters select. */
  lemma {:induction false} ExecuteAgrees(docs: seq<Attrs>, query: seq<Condition>, filters: Attrs)
    requires forall d :: HoldsAll(query, d) <==> Matches(filters, d)
    ensures Execute(docs, query) == Select(docs, filters)
  {
    if docs != [] {
      ExecuteAgrees(docs[1..], query, filters);
    }
  }

  // ---------------------------------------------------------------------------
  // Ordering by timestamp, descending

  /** The sort key of a document: its `timestamp`, null when missing. */
  function SortKey(doc: Attrs): Value {
    Get(doc, "timestamp")
  }

  predicate SortedDesc(s: seq<Attrs>) {
    forall i, j :: 0 <= i < j < |s| ==> ValueLe(SortKey(s[j]), SortKey(s[i]))
  }

  /** Insert `d` into a descending sequence, ahead of the documents with an equal key. */
  function Insert(d: Attrs, s: seq<Attrs>): (r: seq<Attrs>)
    ensures multiset(r) == multiset(s) + multiset{d}
  {
    if s == [] || ValueLe(SortKey(s[0]), SortKey(d)) then [d] + s
    else
      assert s == [s[0]] + s[1..];
      [s[0]] + Insert(d, s[1..])
  }

  lemma {:induction false} InsertSorted(d: Attrs, s: seq<Attrs>)
    requires SortedDesc(s)
    ensures SortedDesc(Insert(d, s))
  {
    if s == [] {
    } else if ValueLe(SortKey(s[0]), SortKey(d)) {
      forall j | 0 < j < |s| + 1 ensures ValueLe(SortKey(([d] + s)[j]), SortKey(d)) {
        if j > 1 {
          ValueLeTransitive(SortKey(s[j - 1]), SortKey(s[0]), SortKey(d));
        }
      }
    } else {
      ValueLeTotal(SortKey(s[0]), SortKey(d));
      InsertSorted(d, s[1..]);
      var t := Insert(d, s[1..]);
      forall j | 0 <= j < |t| ensures ValueLe(SortKey(t[j]), SortKey(s[0])) {
        assert t[j] in multiset(t);
        if t[j] != d {
          assert t[j] in multiset(s[1..]);
          var k :| 0 <= k < |s[1..]| && s[1..][k] == t[j];
          assert s[k + 1] == t[j];
        }
      }
    }
  }

  /** Orders documents by `timestamp` descending (`orderBy('timestamp', 'desc')`). */
  function SortDesc(s: seq<Attrs>): (r: seq<Attrs>)
    ensures multiset(r) == multiset(s)
    ensures SortedDesc(r)
  {
    if s == [] then []
    else
      InsertSorted(s[0], SortDesc(s[1..]));
      assert s == [s[0]] + s[1..];
      Insert(s[0], SortDesc(s[1..]))
  }

  // ---------------------------------------------------------------------------
  // Pagination

  /** The model's default page size, used when a page size of 0 is asked for. */
  const ModelPerPage := 15

  /** One page of results and the numbers a length-aware paginator reports. */
  datatype Page = Page(items: seq<Attrs>, total: nat, perPage: nat, currentPage: nat, lastPage: nat)

  /** `Paginator::resolveCurrentPage()` on the request's `page`: an integer
      in the sense of `FILTER_VALIDATE_INT` (so the query string's `"2"` too)
      of at least 1, else 1. */
  function ResolvePage(page: Value): (r: nat)
    ensures r >= 1
    ensures IntegerValue(page).Some? && IntegerValue(page).value >= 1 ==> r == IntegerValue(page).value
    ensures !(IntegerValue(page).Some? && IntegerValue(page).value >= 1) ==> r == 1
  {
    if IntegerValue(page).Some? && IntegerValue(page).value >= 1 then IntegerValue(page).value else 1
  }

  /** The query string `page=n` selects page `n`. */
  lemma PageFromQueryString(n: nat)
    requires 1 <= n <= IntMax
    ensures ResolvePage(Str(DecimalString(n))) == n
  {
    ParseDecimalString(n);
  }

  /** `max((int) ceil($total / $perPage), 1)`. */
  function LastPage(total: nat, perPage: nat): (r: nat)
    requires perPage >= 1
    ensures r >= 1
    ensures total > 0 ==> (r - 1) * perPage < total <= r * perPage
  {
    if total == 0 then 1
    else
      CeilingDivision(total, perPage);
      (total + perPage - 1) / perPage
  }

  lemma CeilingDivision(total: nat, perPage: nat)
    requires perPage >= 1 && total > 0
    ensures var r := (total + perPage - 1) / perPage;
            r >= 1 && (r - 1) * perPage < total <= r * perPage
  {
    var n := total + perPage - 1;
    var q, m := n / perPage, n % perPage;
    assert q * perPage + m == n && 0 <= m < perPage;
    assert (q - 1) * perPage == q * perPage - perPage;
    assert q * perPage >= total;
  }

  /** Multiplying by a non-negative factor keeps the order. */
  lemma MulMonotonic(a: int, b: int, c: nat)
    requires a <= b
    ensures a * c <= b * c
  {
    assert b * c - a * c == (b - a) * c;
  }

  function Min(a: int, b: int): int {
    if a <= b then a else b
  }

  /** `paginate($perPage)` over already ordered results. */
  function Paginate(ordered: seq<Attrs>, perPage: nat, page: Value): (p: Page)
    ensures p.perPage == (if perPage == 0 then ModelPerPage else perPage)
    ensures p.total == |ordered| && p.currentPage == ResolvePage(page)
    ensures p.lastPage == LastPage(p.total, p.perPage)
    ensures |p.items| <= p.perPage
    ensures p.items <= ordered[Min((p.currentPage - 1) * p.perPage, |ordered|)..]
    ensures |p.items| == Min(p.perPage, |ordered| - Min((p.currentPage - 1) * p.perPage, |ordered|))
    ensures ordered == [] ==> p.items == []
  {
    var size := if perPage == 0 then ModelPerPage else perPage;
    var current := ResolvePage(page);
    MulMonotonic(0, current - 1, size);
    var from: nat := (current - 1) * size;
    var items := if from < |ordered| then ordered[from .. Min(from + size, |ordered|)] else [];
    Page(items, |ordered|, size, current, LastPage(|ordered|, size))
  }

  /** A page has results exactly when it is not past the last page (and there are results). */
  lemma PageNonEmptyIff(ordered: seq<Attrs>, perPage: nat, page: Value)
    ensures var p := Paginate(ordered, perPage, page);
            p.items != [] <==> ordered != [] && p.currentPage <= p.lastPage
  {
    var p := Paginate(ordered, perPage, page);
    var size, current := p.perPage, p.currentPage;
    if ordered != [] {
      if current <= p.lastPage {
        MulMonotonic(current - 1, p.lastPage - 1, size);
      } else {
        MulMonotonic(p.lastPage, current - 1, size);
      }
    }
  }

  /** The `k`-th ordered result is item `k % perPage` of page `k / perPage + 1`. */
  lemma PagesCoverResults(ordered: seq<Attrs>, perPage: nat, k: nat)
    requires perPage >= 1 && k < |ordered|
    ensures var p := Paginate(ordered, perPage, Int(k / perPage + 1));
            k % perPage < |p.items| && p.items[k % perPage] == ordered[k]
  {
    var q, m := k / perPage, k % perPage;
    PageOffset(k, perPage);
    PageItem(ordered, perPage, q, k);
  }

  /** A result `k` with `q * perPage <= k < (q + 1) * perPage` is on page `q + 1`. */
  lemma PageItem(ordered: seq<Attrs>, perPage: nat, q: nat, k: nat)
    requires perPage >= 1 && k < |ordered|
    requires q * perPage <= k < q * perPage + perPage
    ensures var p := Paginate(ordered, perPage, Int(q + 1));
            k - q * perPage < |p.items| && p.items[k - q * perPage] == ordered[k]
  {
    var from := q * perPage;
    assert ResolvePage(Int(q + 1)) == q + 1;
    var p := Paginate(ordered, perPage, Int(q + 1));
    assert (p.currentPage - 1) * p.perPage == from;
    assert p.items <= ordered[from..];
  }

  lemma PageOffset(k: nat, perPage: nat)
    requires perPage >= 1
    ensures var from := (k / perPage) * perPage;
            from <= k < from + perPage && k - from == k % perPage
  {
    var q, m := k / perPage, k % perPage;
    assert q * perPage + m == k;
  }
}

=== FILE: requests.dfy ===
/**
  The validation rules of `StoreLogRequest` and `IndexLogRequest` as
  predicates on the request input. A rule that is not `required` is skipped
  for an absent key, for null (the field is `nullable`) and for a blank string,
  as the validator skips non-implicit rules on those.
 */
module Requests {
  import opened PhpValues
  import opened Uuid
  import opened Dates

  /** The eight accepted log levels. */
  const Levels: set<string> := {"debug", "info", "notice", "warning", "error", "critical", "alert", "emergency"}

  /** `max:255` on `service_name`, counted in characters. */
  const MaxServiceNameLength := 255

  /** The keys `StoreLogRequest` has rules for, i.e. the keys `validated()` keeps. */
  const StoreKeys: set<string> := {"trace_id", "message", "level", "service_name", "timestamp"}

  /** `per_page` bounds on an index request. */
  const MinPerPage := 1
  const MaxPerPage := 100

  /** A blank string, on which only `required` has anything to say. */
  predicate BlankValue(v: Value) {
    v.Str? && Blank(v.s)
  }

  /** The optional rules of key `k` are not applied: it is absent, null or blank. */
  predicate Skipped(input: Attrs, k: string) {
    !Isset(input, k) || BlankValue(input[k])
  }

  /** `required`: present, not null, not a blank string. */
  predicate Required(input: Attrs, k: string) {
    Isset(input, k) && !BlankValue(input[k])
  }

  predicate IsUuidValue(v: Value) { v.Str? && IsUuid(v.s) }
  predicate IsLevel(v: Value) { v.Str? && v.s in Levels }
  predicate IsServiceName(v: Value) { v.Str? && |v.s| <= MaxServiceNameLength }
  /** `date`: a string that reads as a date whose year is at least 1, since
      `checkdate` refuses year 0 even where the `datetime` cast reads it. */
  predicate IsDate(v: Value) { v.Str? && ParseDate(v.s).Some? && 1 <= DigitsValue(v.s[..4]) }
  /** `integer|min:1|max:100`: an integer in the sense of `FILTER_VALIDATE_INT`
      (so the query string's `"20"` too), within the bounds. */
  predicate IsPageSize(v: Value) {
    IntegerValue(v).Some? && MinPerPage <= IntegerValue(v).value <= MaxPerPage
  }

  /** `StoreLogRequest::rules()`. */
  predicate StoreRequestValid(input: Attrs) {
    && (Skipped(input, "trace_id") || IsUuidValue(input["trace_id"]))
    && Required(input, "message") && input["message"].Str?
    && Required(input, "level") && IsLevel(input["level"])
    && Required(input, "service_name") && IsServiceName(input["service_name"])
    && (Skipped(input, "timestamp") || IsDate(input["timestamp"]))
  }

  /** `$request->validated()` on a valid store request: only the keys with
      rules survive, and each satisfies its rules. */
  function Validated(input: Attrs): (r: Attrs)
    requires StoreRequestValid(input)
    ensures r.Keys <= StoreKeys && r.Keys == input.Keys * StoreKeys
    ensures forall k :: k in r ==> r[k] == input[k]
    ensures "message" in r && r["message"].Str? && !Blank(r["message"].s)
    ensures "level" in r && r["level"].Str? && r["level"].s in Levels
    ensures "service_name" in r && r["service_name"].Str? && |r["service_name"].s| <= 255
    ensures Isset(r, "trace_id") ==> BlankValue(r["trace_id"]) || IsUuidValue(r["trace_id"])
    ensures Isset(r, "timestamp") ==> BlankValue(r["timestamp"]) || IsDate(r["timestamp"])
  {
    Only(input, StoreKeys)
  }

  /** `IndexLogRequest::rules()`, including `after_or_equal:date_from`. */
  predicate IndexRequestValid(input: Attrs) {
    && (Skipped(input, "trace_id") || IsUuidValue(input["trace_id"]))
    && (Skipped(input, "level") || IsLevel(input["level"]))
    && (Skipped(input, "service_name") || IsServiceName(input["service_name"]))
    && (Skipped(input, "date_from") || IsDate(input["date_from"]))
    && (Skipped(input, "date_to") || IsDate(input["date_to"]))
    && ("date_from" in input && IsDate(input["date_from"]) && "date_to" in input && IsDate(input["date_to"]) ==>
          ParseDate(input["date_from"].s).value <= ParseDate(input["date_to"].s).value)
    && (Skipped(input, "per_page") || IsPageSize(input["per_page"]))
  }

  /** A non-blank `trace_id` that passed validation is a UUID, hence never empty. */
  lemma ValidTraceIdIsFilled(input: Attrs)
    requires StoreRequestValid(input) || IndexRequestValid(input)
    requires Isset(input, "trace_id") && !BlankValue(input["trace_id"])
    ensures IsUuid(input["trace_id"].s) && !Empty(input["trace_id"])
  {
    UuidIsFilled(input["trace_id"].s);
  }

  /** `per_page` is accepted exactly when it is absent, null, blank or an integer in [1, 100]. */
  lemma PerPageRange(input: Attrs, n: int)
    requires IndexRequestValid(input)
    ensures !IndexRequestValid(input["per_page" := Int(n)]) <==> n < 1 || n > 100
  {
    var changed := input["per_page" := Int(n)];
    assert forall k :: k != "per_page" && k in input ==> k in changed && changed[k] == input[k];
  }

  /** Two readable dates are accepted as a range exactly when `date_to` is
      not earlier than `date_from`. */
  lemma DateRangeOrder(input: Attrs, from: string, to: string)
    requires IndexRequestValid(input)
    requires ParseDate(from).Some? && ParseDate(to).Some?
    ensures IndexRequestValid(input["date_from" := Str(from)]["date_to" := Str(to)]) <==>
              1 <= DigitsValue(from[..4]) && 1 <= DigitsValue(to[..4]) &&
              ParseDate(from).value <= ParseDate(to).value
  {
    var changed := input["date_from" := Str(from)]["date_to" := Str(to)];
    assert changed["date_from"] == Str(from) && changed["date_to"] == Str(to);
    assert forall k :: k != "date_from" && k != "date_to" && k in input ==> k in changed && changed[k] == input[k];
  }

  /** Year 0 names a day the cast can read, but the `date` rule refuses it. */
  lemma YearZeroIsNotDate()
    ensures ParseDate("0000-06-15").Some? && !IsDate(Str("0000-06-15"))
  {
    CalendarDayAt("0000-06-15", 0, 6, 15);
    assert "0000-06-15"[..4] == "0000";
    FourDigitsValue("0000");
  }
}

=== FILE: uuid.dfy ===
/**
  The shape of a UUID string, as the `uuid` validation rule checks it and as
  `Str::uuid()` produces it: 8-4-4-4-12 hexadecimal digits separated by dashes.
 */
module Uuid {
  import opened PhpValues

  predicate IsHexDigit(c: char) {
    ('0' <= c <= '9') || ('a' <= c <= 'f') || ('A' <= c <= 'F')
  }

  predicate IsDashPosition(i: int) {
    i == 8 || i == 13 || i == 18 || i == 23
  }

  predicate IsUuid(s: string) {
    |s| == 36 && forall i :: 0 <= i < 36 ==> if IsDashPosition(i) then s[i] == '-' else IsHexDigit(s[i])
  }

  /** A UUID is never one of PHP's empty values, nor blank. */
  lemma UuidIsFilled(s: string)
    requires IsUuid(s)
    ensures !Empty(Str(s)) && !Blank(s)
  {
    assert !TrimmedChar(s[0]);
  }
}
